=== FILE: README.md ===
# Jersey path normalisation, exception status table, password-grant request and ACL DTO factory

A Dafny model of three small pieces of logic from a collection of Spring Boot
auto-configuration modules:

- **Jersey auto-configuration** (`JerseyAutoConfiguration`): how the configured
  application path becomes the servlet URL pattern (`findPath`) and the filter context
  path (`stripPattern`); how the `@PostConstruct` step gathers Jersey components and
  exception status tables from every `JerseyComponentsProvider` and registers them; and
  how `DefaultExceptionMapper` fills in default status codes and turns a runtime
  exception into a plain-text response.
- **Password flow properties** (`PasswordFlowProperties`): the form body of an OAuth 2.0
  resource owner password credentials access-token request (section 4.3.2 of RFC 6749,
  client credentials in the body as section 2.3.1 of RFC 6749 allows), the token cache
  key, and the builder (`add`, `from`, `build`).
- **ACL DTO factory** (`AclFactory.DtoAclFactory`): an owner and a permission → entry map
  become an `AccessControlList` DTO with one flat entry per permission.

Modelling conventions:

- Java `null` is `Option.None` (module `Wrappers`). An `Integer` value in the status
  table is `Option<int>`, because `HashMap.get(cls) == null` also holds for a key mapped
  to `null`.
- Strings are `seq<char>`. `StringUtils.hasText`, `isEmpty`, `String.startsWith`,
  `endsWith`, `lastIndexOf` and `Character.isWhitespace` are written out in
  `JavaText`. A Dafny `char` is a
  Unicode scalar value while a Java `String` is a sequence of UTF-16 code units, so a lone
  surrogate cannot be written and lengths differ for supplementary characters; no modelled
  behaviour depends on the difference, since every operation compares, cuts and joins whole
  ASCII separators.
- A class is identified by its fully-qualified name. `Class.forName` is two parameters:
  `loadable: set<string>`, the names that resolve, and `errors: set<string>`, the names
  whose loading throws an `Error` rather than an `Exception` (this matters only where the
  caller catches `Exception` alone, in the registration loop of `path()`).
- A call that ends in an exception is a separate outcome: `toResponse` yields a response
  or the exception `Response.status` throws, and `path()` yields a setup or none.
  `Status.fromStatusCode(..).getReasonPhrase()`
  is a parameter `ReasonPhrases = map<int, string>`. Whether an exception is a
  `StatusCodeAwareException` is a tag on the exception record.
- A `MultiValueMap<String, String>` is `map<string, seq<Option<string>>>`: `set` replaces a
  key's list by one value, `addAll` appends.
- The ACL factory is a method whose loop takes the map's keys in an unspecified order,
  since a Java map's entry-set iteration order is not fixed. An entry's users, roles and
  groups are sequences in the iteration order of the entry's collections.

Modules: `Wrappers` (wrappers.dfy), `JavaText` (java_text.dfy), `ServletPath`
(servlet_path.dfy), `ExceptionMapping` (exception_mapping.dfy), `JerseyConfiguration`
(jersey_configuration.dfy), `PasswordFlow` (password_flow.dfy), `AclFactory`
(acl_factory.dfy).

## Model

| member | source | states |
|---|---|---|
| ServletPath.FindPath | bremersee-common/bremersee-common-spring-autoconfigure/src/main/java/org/bremersee/common/spring/autoconfigure/JerseyAutoConfiguration.java:220-231 | a blank path (null, empty or only whitespace) gives `/*`; every result starts with `/`, ends with `/*`, and what precedes that wildcard neither ends with `/*` nor is `/` |
| ServletPath.WithLeadingSlash | bremersee-common/bremersee-common-spring-autoconfigure/src/main/java/org/bremersee/common/spring/autoconfigure/JerseyAutoConfiguration.java:224-226 | the result starts with `/`; a path already starting with `/` is kept, any other gets exactly one `/` in front |
| ServletPath.StripPattern | bremersee-common/bremersee-common-spring-autoconfigure/src/main/java/org/bremersee/common/spring/autoconfigure/JerseyAutoConfiguration.java:187-192 | a path ending in `/*` loses exactly that suffix (appending it again restores the path); any other path is returned unchanged |
| ServletPath.StripWildcards | bremersee-common/bremersee-common-spring-autoconfigure/src/main/java/org/bremersee/common/spring/autoconfigure/JerseyAutoConfiguration.java:227-229 | the loop leaves a prefix of the path that no longer ends with `/*` |
| ServletPath.StripWildcardsRemovesOnlyWildcards | bremersee-common/bremersee-common-spring-autoconfigure/src/main/java/org/bremersee/common/spring/autoconfigure/JerseyAutoConfiguration.java:227-229 | the loop removes wildcards and nothing else: the path is what the loop leaves followed by some number of `/*` |
| ServletPath.AppendWildcard | bremersee-common/bremersee-common-spring-autoconfigure/src/main/java/org/bremersee/common/spring/autoconfigure/JerseyAutoConfiguration.java:230 | for a stripped path (empty or starting with `/`, no trailing `/*`), the result starts with `/` and ends with exactly one `/*`, and never has `/` alone before it; the root `/` becomes the bare `/*`, and for any other path `stripPattern` of the result gives the stripped path back |
| JavaText.LastIndexOf | bremersee-common/bremersee-common-spring-autoconfigure/src/main/java/org/bremersee/common/spring/autoconfigure/JerseyAutoConfiguration.java:189 | the result is -1 or an index where the searched string occurs, and no occurrence lies beyond it |
| ServletPath.StripWildcardsIgnoresAppended | bremersee-common/bremersee-common-spring-autoconfigure/src/main/java/org/bremersee/common/spring/autoconfigure/JerseyAutoConfiguration.java:227-229 | the stripping loop leaves the same string whatever number of `/*` follows the input |
| ServletPath.FindPathIgnoresTrailingWildcards | bremersee-common/bremersee-common-spring-autoconfigure/src/main/java/org/bremersee/common/spring/autoconfigure/JerseyAutoConfiguration.java:227-230 | a path with text followed by any number of `/*` gives the same pattern as the path alone |
| ServletPath.FindPathOfCanonical | bremersee-common/bremersee-common-spring-autoconfigure/src/main/java/org/bremersee/common/spring/autoconfigure/JerseyAutoConfiguration.java:224-230 | a path that starts with `/`, does not end with `/*` and is not `/`, followed by any number of `/*`, gives the path plus exactly one `/*` |
| ServletPath.FindPathOfSlash | bremersee-common/bremersee-common-spring-autoconfigure/src/main/java/org/bremersee/common/spring/autoconfigure/JerseyAutoConfiguration.java:230 | the path `/` gives `/*` |
| ServletPath.FindPathOfWildcard | bremersee-common/bremersee-common-spring-autoconfigure/src/main/java/org/bremersee/common/spring/autoconfigure/JerseyAutoConfiguration.java:227-230 | the path `/*` gives `/*` |
| ServletPath.FindPathOfRoot | bremersee-common/bremersee-common-spring-autoconfigure/src/main/java/org/bremersee/common/spring/autoconfigure/JerseyAutoConfiguration.java:227-230 | `/` followed by any number of `/*` gives `/*` |
| ServletPath.FindPathOfWildcards | bremersee-common/bremersee-common-spring-autoconfigure/src/main/java/org/bremersee/common/spring/autoconfigure/JerseyAutoConfiguration.java:224-230 | one or more `/*` alone give `/*` |
| ServletPath.FindPathForcesLeadingSlash | bremersee-common/bremersee-common-spring-autoconfigure/src/main/java/org/bremersee/common/spring/autoconfigure/JerseyAutoConfiguration.java:224-226 | a path with text that does not start with `/` gives the same pattern as the path with `/` put in front |
| ServletPath.FindPathIdempotent | bremersee-common/bremersee-common-spring-autoconfigure/src/main/java/org/bremersee/common/spring/autoconfigure/JerseyAutoConfiguration.java:220-231 | normalising a pattern a second time leaves it unchanged |
| ServletPath.FindPathOfPattern | bremersee-common/bremersee-common-spring-autoconfigure/src/main/java/org/bremersee/common/spring/autoconfigure/JerseyAutoConfiguration.java:224-230 | a string with a leading `/` and one trailing `/*`, with something other than `/` before it, comes back from the normalisation unchanged |
| ServletPath.StripPatternOfFindPath | bremersee-common/bremersee-common-spring-autoconfigure/src/main/java/org/bremersee/common/spring/autoconfigure/JerseyAutoConfiguration.java:176-192 | the filter context path derived from the servlet pattern, followed by `/*`, is the pattern again, and it carries no trailing `/*` itself |
| ServletPath.FindPathBlankExamples | bremersee-common/bremersee-common-spring-autoconfigure/src/main/java/org/bremersee/common/spring/autoconfigure/JerseyAutoConfiguration.java:221-223 | null, `""` and a blank string give `/*` |
| ServletPath.FindPathRootExamples | bremersee-common/bremersee-common-spring-autoconfigure/src/main/java/org/bremersee/common/spring/autoconfigure/JerseyAutoConfiguration.java:227-230 | `/` and `/*` give `/*` |
| ServletPath.FindPathTwoWildcardsExample | bremersee-common/bremersee-common-spring-autoconfigure/src/main/java/org/bremersee/common/spring/autoconfigure/JerseyAutoConfiguration.java:227-230 | `/*/*` gives `/*` |
| ServletPath.FindPathRepeatedWildcardsExample | bremersee-common/bremersee-common-spring-autoconfigure/src/main/java/org/bremersee/common/spring/autoconfigure/JerseyAutoConfiguration.java:227-230 | `/api/*/*` gives `/api/*` |
| ServletPath.FindPathRelativeExample | bremersee-common/bremersee-common-spring-autoconfigure/src/main/java/org/bremersee/common/spring/autoconfigure/JerseyAutoConfiguration.java:224-230 | `api/*/*` gives `/api/*` |
| ServletPath.FindPathPlainExample | bremersee-common/bremersee-common-spring-autoconfigure/src/main/java/org/bremersee/common/spring/autoconfigure/JerseyAutoConfiguration.java:224-230 | `/api` gives `/api/*` |
| ExceptionMapping.AddClass | bremersee-common/bremersee-common-spring-autoconfigure/src/main/java/org/bremersee/common/spring/autoconfigure/JerseyAutoConfiguration.java:277-283 | a null class leaves the table unchanged; otherwise the class becomes a key, a non-null code already there is kept, a missing or null code becomes the given one, and no other key changes |
| ExceptionMapping.AddClassByName | bremersee-common/bremersee-common-spring-autoconfigure/src/main/java/org/bremersee/common/spring/autoconfigure/JerseyAutoConfiguration.java:286-295 | an empty name or a name that cannot be loaded leaves the table unchanged; a loadable name is added as its class would be |
| ExceptionMapping.InitDefaults | bremersee-common/bremersee-common-spring-autoconfigure/src/main/java/org/bremersee/common/spring/autoconfigure/JerseyAutoConfiguration.java:270-275 | the keys become the caller's plus RuntimeException and IllegalArgumentException, plus AccessDeniedException and EntityNotFoundException when loadable; caller codes are never overwritten; a default class without a code gets 500, 400, 403 or 404 |
| ExceptionMapping.InitDefaultsSteps | bremersee-common/bremersee-common-spring-autoconfigure/src/main/java/org/bremersee/common/spring/autoconfigure/JerseyAutoConfiguration.java:270-283 | the four put-if-absent steps in sequence have exactly the effect stated for the defaults |
| ExceptionMapping.NewMapper | bremersee-common/bremersee-common-spring-autoconfigure/src/main/java/org/bremersee/common/spring/autoconfigure/JerseyAutoConfiguration.java:261-268 | with a null table read as empty, the keys are the caller's keys plus the loadable default classes; every non-null caller code survives; a default class that is absent or mapped to null gets its default status (500 for `RuntimeException`, 400 for `IllegalArgumentException`, 403 and 404 for the two loadable ones) |
| ExceptionMapping.Get | bremersee-common/bremersee-common-spring-autoconfigure/src/main/java/org/bremersee/common/spring/autoconfigure/JerseyAutoConfiguration.java:300 | looking up an exception instance in the class-keyed table always misses; a class key yields its mapped value, or null when absent |
| ExceptionMapping.ResolveStatus | bremersee-common/bremersee-common-spring-autoconfigure/src/main/java/org/bremersee/common/spring/autoconfigure/JerseyAutoConfiguration.java:300-306 | the status falls back in order: the code found in the table, else the status-code-aware exception's non-null code, else 500 |
| ExceptionMapping.ResolveEntity | bremersee-common/bremersee-common-spring-autoconfigure/src/main/java/org/bremersee/common/spring/autoconfigure/JerseyAutoConfiguration.java:307-313 | the entity is a non-empty message, else the status's reason phrase when the status table knows the code, else `No reason` |
| ExceptionMapping.Respond | bremersee-common/bremersee-common-spring-autoconfigure/src/main/java/org/bremersee/common/spring/autoconfigure/JerseyAutoConfiguration.java:307-317 | the outcome throws `IllegalArgumentException` exactly when the resolved status is outside 100..599; otherwise it is a `text/plain` response with the resolved status and entity |
| ExceptionMapping.ToResponse | bremersee-common/bremersee-common-spring-autoconfigure/src/main/java/org/bremersee/common/spring/autoconfigure/JerseyAutoConfiguration.java:298-321 | a null exception gives a bare 500; otherwise the status is the status-code-aware exception's code or else 500 (the table lookup by instance never hits); a status outside 100..599 makes `Response.status` throw `IllegalArgumentException`; a response has media type `text/plain` and as entity the message, or the reason phrase when the message is empty, or `No reason` |
| ExceptionMapping.IsMappable | bremersee-common/bremersee-common-spring-autoconfigure/src/main/java/org/bremersee/common/spring/autoconfigure/JerseyAutoConfiguration.java:324-332 | true exactly for a non-null exception that is status-code aware (the table lookup by instance never hits) |
| ExceptionMapping.ToResponseByClass | bremersee-common/bremersee-common-spring-autoconfigure/src/main/java/org/bremersee/common/spring/autoconfigure/JerseyAutoConfiguration.java:298-321 | the corrected lookup: the table's code for the exception's class wins, else the exception's own code, else 500; a status outside 100..599 throws `IllegalArgumentException`; entity and media type as for the response as written |
| ExceptionMapping.IsMappableByClass | bremersee-common/bremersee-common-spring-autoconfigure/src/main/java/org/bremersee/common/spring/autoconfigure/JerseyAutoConfiguration.java:324-332 | the corrected check: true exactly for a non-null exception that is status-code aware or whose class has a code in the table |
| ExceptionMapping.ByClassAgreesWithTable | bremersee-common/bremersee-common-spring-autoconfigure/src/main/java/org/bremersee/common/spring/autoconfigure/JerseyAutoConfiguration.java:299-317 | with the corrected lookup, an exception whose class has a code is accepted, and answered with that code exactly when `Response.status` accepts it |
| ExceptionMapping.LookupsAgreeOffTable | bremersee-common/bremersee-common-spring-autoconfigure/src/main/java/org/bremersee/common/spring/autoconfigure/JerseyAutoConfiguration.java:298-332 | when the table has no code for the exception's class, the as-written and corrected mappers behave the same |
| ExceptionMapping.UnusableOwnStatusThrows | bremersee-common/bremersee-common-spring-autoconfigure/src/main/java/org/bremersee/common/spring/autoconfigure/JerseyAutoConfiguration.java:301-317 | a status-code-aware exception whose code lies outside 100..599 and whose class is not in the table is accepted, yet both mappers end in `IllegalArgumentException` |
| ExceptionMapping.DefaultCodesValid | bremersee-common/bremersee-common-spring-autoconfigure/src/main/java/org/bremersee/common/spring/autoconfigure/JerseyAutoConfiguration.java:270-275 | every default code (500, 400, 403, 404) is one `Response.status` accepts |
| ExceptionMapping.IllegalArgumentIgnoredAsWritten | bremersee-common/bremersee-common-spring-autoconfigure/src/main/java/org/bremersee/common/spring/autoconfigure/JerseyAutoConfiguration.java:298-332 | with the default table, an IllegalArgumentException with the message `bad input` is declined and answered 500 with that message as written, but accepted and answered 400 by class |
| ExceptionMapping.NullException | bremersee-common/bremersee-common-spring-autoconfigure/src/main/java/org/bremersee/common/spring/autoconfigure/JerseyAutoConfiguration.java:298-332 | a null exception is never mappable and gets status 500 with no entity and no media type |
| JerseyConfiguration.NonNull | bremersee-common/bremersee-common-spring-autoconfigure/src/main/java/org/bremersee/common/spring/autoconfigure/JerseyAutoConfiguration.java:117-123 | the result holds exactly the non-null elements of a non-null array |
| JerseyConfiguration.Offered | bremersee-common/bremersee-common-spring-autoconfigure/src/main/java/org/bremersee/common/spring/autoconfigure/JerseyAutoConfiguration.java:115-124 | a component is offered exactly when some provider's array holds it |
| JerseyConfiguration.Distinct | bremersee-common/bremersee-common-spring-autoconfigure/src/main/java/org/bremersee/common/spring/autoconfigure/JerseyAutoConfiguration.java:114-124 | the gathered set has no duplicates and holds exactly the offered components |
| JerseyConfiguration.DistinctKeepsFirstOccurrenceOrder | bremersee-common/bremersee-common-spring-autoconfigure/src/main/java/org/bremersee/common/spring/autoconfigure/JerseyAutoConfiguration.java:114-124 | the gathered components appear in the order of their first occurrence among the offered ones |
| JerseyConfiguration.MergedCodes | bremersee-common/bremersee-common-spring-autoconfigure/src/main/java/org/bremersee/common/spring/autoconfigure/JerseyAutoConfiguration.java:125-128 | a class is in the merged table exactly when some provider's non-null table has it |
| JerseyConfiguration.MergedCodesLastWins | bremersee-common/bremersee-common-spring-autoconfigure/src/main/java/org/bremersee/common/spring/autoconfigure/JerseyAutoConfiguration.java:125-128 | a class's merged code is the one from the last provider whose table has the class |
| JerseyConfiguration.AddComponents | bremersee-common/bremersee-common-spring-autoconfigure/src/main/java/org/bremersee/common/spring/autoconfigure/JerseyAutoConfiguration.java:117-124 | the inner loop over one provider's array extends the insertion-ordered set exactly as keeping first occurrences of the non-null components would |
| JerseyConfiguration.GatherOne | bremersee-common/bremersee-common-spring-autoconfigure/src/main/java/org/bremersee/common/spring/autoconfigure/JerseyAutoConfiguration.java:115-128 | one pass of the provider loop: the set gains the provider's new non-null components in order, and its table is merged over the earlier ones |
| JerseyConfiguration.GatherComponents | bremersee-common/bremersee-common-spring-autoconfigure/src/main/java/org/bremersee/common/spring/autoconfigure/JerseyAutoConfiguration.java:116-123 | the component half of one pass: the set becomes the first occurrences of everything offered so far including this provider's non-null components, and a null array adds nothing |
| JerseyConfiguration.GatherProviders | bremersee-common/bremersee-common-spring-autoconfigure/src/main/java/org/bremersee/common/spring/autoconfigure/JerseyAutoConfiguration.java:113-129 | the provider loop yields the first-occurrence-ordered distinct components and the putAll-merged table; a null provider list yields neither components nor codes |
| JerseyConfiguration.RegisterAll | bremersee-common/bremersee-common-spring-autoconfigure/src/main/java/org/bremersee/common/spring/autoconfigure/JerseyAutoConfiguration.java:130-143 | an object is registered as an instance exactly when it was gathered; a class is registered exactly when it was gathered as a class or as a loadable name; nothing else is registered |
| JerseyConfiguration.RegisterAllAppend | bremersee-common/bremersee-common-spring-autoconfigure/src/main/java/org/bremersee/common/spring/autoconfigure/JerseyAutoConfiguration.java:130-143 | registrations follow the iteration order of the gathered components: registering a concatenation registers the first part, then the second |
| JerseyConfiguration.RegisterAllSnoc | bremersee-common/bremersee-common-spring-autoconfigure/src/main/java/org/bremersee/common/spring/autoconfigure/JerseyAutoConfiguration.java:130-143 | one more component at the end of the iteration appends exactly that component's registration after the earlier ones |
| JerseyConfiguration.RegisterAllSingleton | bremersee-common/bremersee-common-spring-autoconfigure/src/main/java/org/bremersee/common/spring/autoconfigure/JerseyAutoConfiguration.java:131-141 | one component yields exactly its own registration: none for a class name that cannot be loaded, else the loaded class, the class literal or the object itself |
| JerseyConfiguration.RegistrationOf | bremersee-common/bremersee-common-spring-autoconfigure/src/main/java/org/bremersee/common/spring/autoconfigure/JerseyAutoConfiguration.java:130-143 | a name registers its class exactly when it loads and is skipped otherwise; a class registers as a class and any other object as an instance; one call at most |
| JerseyConfiguration.ResolverComesFirst | bremersee-common/bremersee-common-spring-autoconfigure/src/main/java/org/bremersee/common/spring/autoconfigure/JerseyAutoConfiguration.java:109-111 | the JAXB context resolver heads the registrations exactly when a marshaller is present |
| JerseyConfiguration.Registrations | bremersee-common/bremersee-common-spring-autoconfigure/src/main/java/org/bremersee/common/spring/autoconfigure/JerseyAutoConfiguration.java:109-147 | the JAXB resolver heads the registrations exactly when a marshaller is present; then come the components' registrations; the exception mapper over the merged table comes last |
| JerseyConfiguration.PostConstruct | bremersee-common/bremersee-common-spring-autoconfigure/src/main/java/org/bremersee/common/spring/autoconfigure/JerseyAutoConfiguration.java:104-147 | `path()` fails exactly when loading some gathered name throws an `Error`; otherwise the path is the normalised pattern and the registrations are those of the gathered components and merged tables |
| JerseyConfiguration.ProviderCodeSurvivesDefaults | bremersee-common/bremersee-common-spring-autoconfigure/src/main/java/org/bremersee/common/spring/autoconfigure/JerseyAutoConfiguration.java:113-147 | a non-null code from the last provider supplying a class is the code the mapper ends up with for it |
| PasswordFlow.SetValue | common-base-security/src/main/java/org/bremersee/security/authentication/PasswordFlowProperties.java:71-83 | after `set`, the key holds exactly the one value and every other key is unchanged |
| PasswordFlow.AddValues | common-base-security/src/main/java/org/bremersee/security/authentication/PasswordFlowProperties.java:177-182 | after `addAll(key, values)`, the key holds its old values followed by the new ones and every other key is unchanged |
| PasswordFlow.AddAllValues | common-base-security/src/main/java/org/bremersee/security/authentication/PasswordFlowProperties.java:67-70 | after `addAll(map)`, each key holds the receiver's values followed by the other map's |
| PasswordFlow.CreateBody | common-base-security/src/main/java/org/bremersee/security/authentication/PasswordFlowProperties.java:66-85 | the body has exactly the additional keys plus the five reserved keys; non-reserved additional keys keep their lists; `grant_type` is `password`; client id and username are copied; a null client secret or password is sent as `""` |
| PasswordFlow.CreateCacheKey | common-base-security/src/main/java/org/bremersee/security/authentication/PasswordFlowProperties.java:57-63 | the key's length is the five credentials' lengths plus four; it starts with the token endpoint and `:` and ends with `:` and the password (null rendered as `null`) |
| PasswordFlow.CacheKeyLayout | common-base-security/src/main/java/org/bremersee/security/authentication/PasswordFlowProperties.java:57-63 | whatever the credentials contain, the key holds token endpoint, client id, client secret, username and password at consecutive positions, each separated from the next by one `:` |
| PasswordFlow.BasicAuthProperties | common-base-security/src/main/java/org/bremersee/security/authentication/PasswordFlowProperties.java:51-54 | a password flow never has Basic authentication properties |
| PasswordFlow.ClientCredentialsInBody | common-base-security/src/main/java/org/bremersee/security/authentication/PasswordFlowProperties.java:51-77 | a password flow has no Basic authentication properties, the body always carries client id and client secret, and the grant type is `password` |
| PasswordFlow.CacheKeyFields | common-base-security/src/main/java/org/bremersee/security/authentication/PasswordFlowProperties.java:57-63 | when no credential contains `:`, splitting the cache key at `:` gives token endpoint, client id, client secret, username and password in that order (null as `null`) |
| PasswordFlow.Add | common-base-security/src/main/java/org/bremersee/security/authentication/PasswordFlowProperties.java:177-182 | a key without text or a null values array changes nothing; otherwise the values are appended to the key's list and nothing else changes |
| PasswordFlow.From | common-base-security/src/main/java/org/bremersee/security/authentication/PasswordFlowProperties.java:190-208 | a null source changes nothing; otherwise all five scalars are overwritten (username and password with null for a non-password flow), the keys are the builder's and the source's, and each key holds the builder's values followed by the source's |
| PasswordFlow.Build | common-base-security/src/main/java/org/bremersee/security/authentication/PasswordFlowProperties.java:215-223 | the built properties are a password flow, and a fresh builder filled from them is the original builder again |
| PasswordFlow.AddAllToEmpty | common-base-security/src/main/java/org/bremersee/security/authentication/PasswordFlowProperties.java:69 | adding every list of a map to an empty map gives that map |
| PasswordFlow.BuildFromRoundTrip | common-base-security/src/main/java/org/bremersee/security/authentication/PasswordFlowProperties.java:190-223 | building from a fresh builder filled from a password flow's properties gives them back, a null additional table becoming an empty one |
| PasswordFlow.AddedPropertyReachesBody | common-base-security/src/main/java/org/bremersee/security/authentication/PasswordFlowProperties.java:66-84 | a property added under a non-reserved key appears in the request body as the key's earlier values followed by the added ones |
| PasswordFlow.ReservedPropertyOverridden | common-base-security/src/main/java/org/bremersee/security/authentication/PasswordFlowProperties.java:66-84 | a property added under a reserved key does not change that key in the request body |
| PasswordFlow.FromClientCredentialsClearsOwner | common-base-security/src/main/java/org/bremersee/security/authentication/PasswordFlowProperties.java:195-205 | after `from` with a client credentials source, the body's username is null and its password is `""` |
| AclFactory.CreateAccessControlList | src/main/java/org/bremersee/security/access/AclFactory.java:42-60 | the owner is copied (null included); a null map leaves the entry list unset; otherwise there is one entry per map entry, a null key giving a null permission; permissions are pairwise distinct, every key appears, each entry's guest flag and lists are its entry's, and reading the list back gives the map |

## Left out

- Spring and Jersey wiring: bean registration methods, `ServletContainer`, filter order,
  init parameters, `onStartup`, logging, and the `JAXBContextProvider` itself (only its
  registration is modelled). These are framework plumbing.
- `ResourceConfig.register` is modelled as the sequence of registration calls; what Jersey
  does with a repeated registration is not modelled. When loading a gathered name throws
  an `Error`, the registrations made before it are not modelled, since `path()` fails.
- What Jersey does when `toResponse` throws is not modelled; the model stops at the
  `IllegalArgumentException` that `Response.status` throws.
- The class hierarchy: exception classes are compared by name only. The corrected lookup
  (`ToResponseByClass`, `IsMappableByClass`) uses the exception's exact class and does not
  walk superclasses.
- `StatusCodeAwareException.getStatusCode` and the JAX-RS `Status` table are not part of
  this model: the first is a tag on the exception, the second a parameter.
- JavaText.IsWhitespace: follows current Unicode data. Java 8 also treats U+180E as
  whitespace, which the model does not.
- The key order of `LinkedMultiValueMap`: a form body is a map, so its key order is not
  modelled.
- The sharing of the builder's additional-properties map with the built properties: the
  model uses value semantics and claims no defensive copy.
- Lombok-generated `toString`, `equals` and `hashCode`: the generated code is not visible.
- The `BasicAuthProperties` type is not part of this model, so
  `PasswordFlow.BasicAuthProperties` is generic in it.
- A null `Ace` value in the ACL map, and an `Ace` whose users, roles or groups are null:
  the factory dereferences them and throws a `NullPointerException`; the model's map
  values and lists are never null. A null key, which a Java map allows, is modelled: it
  gives an entry whose permission is null.
- The DTO's default entry list: an unset entry list is `None`; its default value belongs
  to a generated class that is not part of this model.
- `AclMapper`: its two default methods (AclMapper.java:30-36) delegate to `AclBuilder`,
  which is not part of this model; the third (line 38) is abstract.
  `EntriesToMap` is a reference reading of a DTO entry list back into a map, with a
  later entry replacing an earlier one, so that the factory's output can be stated as
  complete.
- `SwaggerProperties`: a property holder with constant defaults.
- The cache key does not identify the credentials in general: a credential containing
  `:`, or a literal `"null"` next to a null value, gives a colon-joined key another set
  of credentials can also produce. `CacheKeyFields` states the colon-free case only.

## Findings

| source | as written | input that shows it | evidently intended | confidence | as-written member | corrected member |
|---|---|---|---|---|---|---|
| bremersee-common/bremersee-common-spring-autoconfigure/src/main/java/org/bremersee/common/spring/autoconfigure/JerseyAutoConfiguration.java:300 | `exceptionStatusCodeMap.get(exception)` looks up the exception instance in a table keyed by `Class` objects, so the lookup always misses; the same holds for `isMappable` at line 329 | the default table maps IllegalArgumentException to 400, yet `new IllegalArgumentException("bad input")` is declined by `isMappable` and `toResponse` answers 500 | look the exception up by its class, so that a class's configured code decides the status | high; not executed | ExceptionMapping.ToResponse, ExceptionMapping.IsMappable, ExceptionMapping.IllegalArgumentIgnoredAsWritten | ExceptionMapping.ToResponseByClass, ExceptionMapping.IsMappableByClass, ExceptionMapping.ByClassAgreesWithTable |

=== FILE: acl_factory.dfy ===
/**
 * The DTO access control list factory: an owner and a map from permission name to access
 * control entry become a flat list of DTO entries.
 */
module AclFactory {
  import opened Wrappers

  /**
   * An access control entry: the guest flag and the users, roles and groups granted the
   * permission, each in the iteration order of its collection.
   */
  datatype Ace = Ace(guest: bool, users: seq<string>, roles: seq<string>, groups: seq<string>)

  /** A permission name, as a map key: `null` is a legal key of a Java map. */
  type Permission = Option<string>

  /** One DTO entry: a permission name, possibly null, with its grantees. */
  datatype AccessControlEntry = AccessControlEntry(
    permission: Permission,
    guest: bool,
    users: seq<string>,
    roles: seq<string>,
    groups: seq<string>)

  /**
   * The DTO: the owner and the entry list. `None` as the entry list means it was never
   * set and keeps the DTO's own default, which is not part of this model.
   */
  datatype AccessControlList = AccessControlList(owner: Option<string>, entries: Option<seq<AccessControlEntry>>)

  /** The DTO entry for one map entry, with its own copies of the three lists. */
  function ToEntry(permission: Permission, ace: Ace): AccessControlEntry {
    AccessControlEntry(permission, ace.guest, ace.users, ace.roles, ace.groups)
  }

  /** The access control entry a DTO entry describes. */
  function AceOf(e: AccessControlEntry): Ace {
    Ace(e.guest, e.users, e.roles, e.groups)
  }

  /**
   * Reads a DTO entry list back into a map, entry by entry, so that a later entry for the
   * same permission replaces an earlier one.
   */
  function EntriesToMap(entries: seq<AccessControlEntry>): (m: map<Permission, Ace>)
    ensures m.Keys == set e | e in entries :: e.permission
    ensures forall i :: 0 <= i < |entries| && (forall j :: i < j < |entries| ==> entries[j].permission != entries[i].permission)
              ==> m[entries[i].permission] == AceOf(entries[i])
  {
    if |entries| == 0 then map[]
    else
      var init := entries[..|entries| - 1];
      var last := entries[|entries| - 1];
      assert entries == init + [last];
      EntriesToMap(init)[last.permission := AceOf(last)]
  }

  /** No permission is named twice. */
  predicate DistinctPermissions(entries: seq<AccessControlEntry>) {
    forall i, j :: 0 <= i < j < |entries| ==> entries[i].permission != entries[j].permission
  }

  /**
   * `DtoAclFactory.createAccessControlList`: the owner is copied as is; when the map is
   * not null, each map entry becomes one DTO entry, in the map's iteration order (any
   * order: the loop takes the keys in an unspecified order). A null key gives an entry
   * whose permission is null.
   */
  method CreateAccessControlList(owner: Option<string>, entries: Option<map<Permission, Ace>>)
    returns (acl: AccessControlList)
    ensures acl.owner == owner
    ensures entries.None? ==> acl.entries.None?
    ensures entries.Some? ==> acl.entries.Some?
    ensures entries.Some? ==> |acl.entries.value| == |entries.value|
    ensures entries.Some? ==> DistinctPermissions(acl.entries.value)
    ensures entries.Some? ==> forall e :: e in acl.entries.value ==>
              e.permission in entries.value && AceOf(e) == entries.value[e.permission]
    ensures entries.Some? ==> forall p :: p in entries.value ==>
              exists e :: e in acl.entries.value && e.permission == p
    ensures entries.Some? ==> EntriesToMap(acl.entries.value) == entries.value
  {
    acl := AccessControlList(owner, None);
    if entries.None? {
      return;
    }
    var m := entries.value;
    var remaining := m.Keys;
    var list: seq<AccessControlEntry> := [];
    while remaining != {}
      invariant remaining <= m.Keys
      invariant |list| + |remaining| == |m.Keys|
      invariant DistinctPermissions(list)
      invariant forall e :: e in list ==> e.permission in m && e.permission !in remaining
      invariant forall e :: e in list ==> AceOf(e) == m[e.permission]
      invariant forall p :: p in m && p !in remaining ==> exists e :: e in list && e.permission == p
      decreases |remaining|
    {
      var permission :| permission in remaining;
      list := list + [ToEntry(permission, m[permission])];
      remaining := remaining - {permission};
    }
    assert |list| == |m|;
    EntriesToMapOfDistinct(list, m);
    acl := acl.(entries := Some(list));
  }

  /** A list with distinct permissions that describes every entry of a map reads back as that map. */
  lemma EntriesToMapOfDistinct(list: seq<AccessControlEntry>, m: map<Permission, Ace>)
    requires DistinctPermissions(list)
    requires forall e :: e in list ==> e.permission in m && AceOf(e) == m[e.permission]
    requires forall p :: p in m ==> exists e :: e in list && e.permission == p
    ensures EntriesToMap(list) == m
  {
    var r := EntriesToMap(list);
    forall p | p in m
      ensures p in r && r[p] == m[p]
    {
      var e :| e in list && e.permission == p;
      var i :| 0 <= i < |list| && list[i] == e;
    }
  }
}

=== FILE: exception_mapping.dfy ===
/**
 * The exception-to-status table of the Jersey auto-configuration's `DefaultExceptionMapper`:
 * how default status codes are added to a caller-supplied table, and how a runtime
 * exception is turned into a plain-text response.
 */
module ExceptionMapping {
  import opened Wrappers
  import opened JavaText

  /** A class, identified by its fully-qualified name. */
  type ClassName = string

  /**
   * `Map<Class<? extends RuntimeException>, Integer>`: a `HashMap` value is an `Integer`
   * and may be `null`.
   */
  type StatusCodeMap = map<ClassName, Option<int>>

  /** `Status.fromStatusCode(code).getReasonPhrase()` for the codes the JAX-RS table knows. */
  type ReasonPhrases = map<int, string>

  const InternalServerError: int := 500
  const BadRequest: int := 400
  const Forbidden: int := 403
  const NotFound: int := 404

  const RuntimeExceptionClass: ClassName := "java.lang.RuntimeException"
  const IllegalArgumentExceptionClass: ClassName := "java.lang.IllegalArgumentException"
  const AccessDeniedExceptionClass: ClassName :=
    "org.springframework.security.access.AccessDeniedException"
  const EntityNotFoundExceptionClass: ClassName := "javax.persistence.EntityNotFoundException"

  const TextPlain: string := "text/plain"
  const NoReason: string := "No reason"

  /** Whether an exception is a `StatusCodeAwareException`, and the code it carries. */
  datatype StatusTag = Plain | StatusCodeAware(statusCode: Option<int>)

  /** A runtime exception: its class, its message and its status tag. */
  datatype RuntimeException = RuntimeException(cls: ClassName, message: Option<string>, tag: StatusTag)

  /** What is handed to `HashMap.get`: a `Class` object or an exception instance. */
  datatype LookupKey = ClassKey(name: ClassName) | InstanceKey(exception: RuntimeException)

  /** A built JAX-RS response: status, entity and media type. */
  datatype Response = Response(status: int, entity: Option<string>, mediaType: Option<string>)

  /** The mapper and the status table it owns. */
  datatype DefaultExceptionMapper = DefaultExceptionMapper(codes: StatusCodeMap)

  /** The code a table holds for a class; `None` when absent or mapped to `null`. */
  function CodeOf(m: StatusCodeMap, cls: ClassName): Option<int> {
    if cls in m then m[cls] else None
  }

  /**
   * `HashMap.get(key)` on a table whose keys are `Class` objects. For an exception
   * instance the lookup compares with the exception's own `equals`, which `Throwable`
   * inherits from `Object` (identity), so no `Class` key matches and the lookup misses.
   */
  function Get(m: StatusCodeMap, key: LookupKey): (r: Option<int>)
    ensures key.InstanceKey? ==> r.None?
    ensures key.ClassKey? && key.name in m ==> r == m[key.name]
    ensures key.ClassKey? && key.name !in m ==> r.None?
  {
    match key
    case ClassKey(name) => CodeOf(m, name)
    case InstanceKey(_) => None
  }

  /**
   * `addRuntimeExceptionClassToMap(Class, int)`: a null class is ignored; otherwise the
   * code is put only when the table has no non-null code for the class.
   */
  function AddClass(m: StatusCodeMap, cls: Option<ClassName>, code: int): (r: StatusCodeMap)
    ensures cls.None? ==> r == m
    ensures cls.Some? ==> r.Keys == m.Keys + {cls.value}
    ensures cls.Some? ==> CodeOf(r, cls.value) == Some(CodeOf(m, cls.value).GetOr(code))
    ensures forall k :: k in m && m[k].Some? ==> r[k] == m[k]
    ensures forall k :: k in m && Some(k) != cls ==> r[k] == m[k]
  {
    if cls.Some? && CodeOf(m, cls.value).None? then m[cls.value := Some(code)] else m
  }

  /**
   * `addRuntimeExceptionClassToMap(String, int)`: an empty name is ignored, and a name
   * `Class.forName` cannot load (not in `loadable`) leaves the table unchanged, whether
   * loading throws an `Exception` or an `Error`: the call catches any `Throwable`.
   */
  function AddClassByName(m: StatusCodeMap, name: Option<string>, code: int, loadable: set<string>): (r: StatusCodeMap)
    ensures IsEmpty(name) || name.value !in loadable ==> r == m
    ensures !IsEmpty(name) && name.value in loadable ==> r == AddClass(m, name, code)
  {
    if IsEmpty(name) then m
    else if name.value in loadable then AddClass(m, name, code)
    else m
  }

  /** The defaults, class by class. */
  const DefaultCodes: map<ClassName, int> := map[
    RuntimeExceptionClass := InternalServerError,
    IllegalArgumentExceptionClass := BadRequest,
    AccessDeniedExceptionClass := Forbidden,
    EntityNotFoundExceptionClass := NotFound]

  /** The default classes that are registered: the two `java.lang` ones always, the rest when loadable. */
  function DefaultClasses(loadable: set<string>): set<ClassName> {
    {RuntimeExceptionClass, IllegalArgumentExceptionClass}
    + ({AccessDeniedExceptionClass, EntityNotFoundExceptionClass} * loadable)
  }

  /**
   * `initExceptionStatusCodeMap`: adds 500, 400, 403 and 404 put-if-absent; the last two
   * only when their classes can be loaded.
   */
  function InitDefaults(m: StatusCodeMap, loadable: set<string>): (r: StatusCodeMap)
    ensures r.Keys == m.Keys + DefaultClasses(loadable)
    ensures forall k :: k in m && m[k].Some? ==> r[k] == m[k]
    ensures forall k :: k in m && k !in DefaultClasses(loadable) ==> r[k] == m[k]
    ensures forall k :: k in DefaultClasses(loadable) && CodeOf(m, k).None? ==> r[k] == Some(DefaultCodes[k])
  {
    InitDefaultsSteps(m, loadable);
    var m1 := AddClass(m, Some(RuntimeExceptionClass), InternalServerError);
    var m2 := AddClass(m1, Some(IllegalArgumentExceptionClass), BadRequest);
    var m3 := AddClassByName(m2, Some(AccessDeniedExceptionClass), Forbidden, loadable);
    AddClassByName(m3, Some(EntityNotFoundExceptionClass), NotFound, loadable)
  }

  /** The four steps of `initExceptionStatusCodeMap`, one class at a time. */
  lemma InitDefaultsSteps(m: StatusCodeMap, loadable: set<string>)
    ensures var m1 := AddClass(m, Some(RuntimeExceptionClass), InternalServerError);
            var m2 := AddClass(m1, Some(IllegalArgumentExceptionClass), BadRequest);
            var m3 := AddClassByName(m2, Some(AccessDeniedExceptionClass), Forbidden, loadable);
            var r := AddClassByName(m3, Some(EntityNotFoundExceptionClass), NotFound, loadable);
            && r.Keys == m.Keys + DefaultClasses(loadable)
            && (forall k :: k in m && m[k].Some? ==> r[k] == m[k])
            && (forall k :: k in m && k !in DefaultClasses(loadable) ==> r[k] == m[k])
            && (forall k :: k in DefaultClasses(loadable) && CodeOf(m, k).None? ==> r[k] == Some(DefaultCodes[k]))
  {
    var m1 := AddClass(m, Some(RuntimeExceptionClass), InternalServerError);
    var m2 := AddClass(m1, Some(IllegalArgumentExceptionClass), BadRequest);
    var m3 := AddClassByName(m2, Some(AccessDeniedExceptionClass), Forbidden, loadable);
    var r := AddClassByName(m3, Some(EntityNotFoundExceptionClass), NotFound, loadable);
    var all := [RuntimeExceptionClass, IllegalArgumentExceptionClass, AccessDeniedExceptionClass, EntityNotFoundExceptionClass];
    assert |all[0]| != |all[1]| && |all[0]| != |all[2]| && |all[0]| != |all[3]|;
    assert |all[1]| != |all[2]| && |all[1]| != |all[3]| && |all[2]| != |all[3]|;
    assert r.Keys == m.Keys + DefaultClasses(loadable);
    forall k | k in DefaultClasses(loadable) && CodeOf(m, k).None?
      ensures r[k] == Some(DefaultCodes[k])
    {
      if k == RuntimeExceptionClass {
        assert m1[k] == Some(InternalServerError);
      } else if k == IllegalArgumentExceptionClass {
        assert m2[k] == Some(BadRequest);
      } else if k == AccessDeniedExceptionClass {
        assert m3[k] == Some(Forbidden);
      }
    }
  }

  /** The mapper's constructor: a null table is replaced by an empty one, then defaults are added. */
  function NewMapper(codes: Option<StatusCodeMap>, loadable: set<string>): (r: DefaultExceptionMapper)
    ensures codes.None? ==> r.codes.Keys == DefaultClasses(loadable)
    ensures codes.Some? ==> forall k :: k in codes.value && codes.value[k].Some? ==> k in r.codes && r.codes[k] == codes.value[k]
    ensures r.codes.Keys == codes.GetOr(map[]).Keys + DefaultClasses(loadable)
    ensures forall k :: k in codes.GetOr(map[]) && codes.GetOr(map[])[k].Some? ==> r.codes[k] == codes.GetOr(map[])[k]
    ensures forall k :: k in DefaultClasses(loadable) && CodeOf(codes.GetOr(map[]), k).None? ==> r.codes[k] == Some(DefaultCodes[k])
  {
    DefaultExceptionMapper(InitDefaults(codes.GetOr(map[]), loadable))
  }

  /** The status fallback chain: the table's code, else the exception's own code, else 500. */
  function ResolveStatus(found: Option<int>, tag: StatusTag): (r: int)
    ensures found.Some? ==> r == found.value
    ensures found.None? && tag.StatusCodeAware? && tag.statusCode.Some? ==> r == tag.statusCode.value
    ensures found.None? && !(tag.StatusCodeAware? && tag.statusCode.Some?) ==> r == InternalServerError
  {
    if found.Some? then found.value
    else if tag.StatusCodeAware? && tag.statusCode.Some? then tag.statusCode.value
    else InternalServerError
  }

  /** The entity: the message, else the status's reason phrase, else "No reason". */
  function ResolveEntity(message: Option<string>, status: int, reasons: ReasonPhrases): (r: string)
    ensures !IsEmpty(message) ==> r == message.value
    ensures IsEmpty(message) && status in reasons ==> r == reasons[status]
    ensures IsEmpty(message) && status !in reasons ==> r == NoReason
  {
    if !IsEmpty(message) then message.value
    else if status in reasons then reasons[status]
    else NoReason
  }

  /**
   * The codes `Response.status(int)` accepts: any code below 100 or above 599 makes it
   * throw an `IllegalArgumentException`.
   */
  predicate ValidStatus(code: int) {
    100 <= code <= 599
  }

  /** What a call of `toResponse` ends in: a response, or an exception of the named class. */
  datatype Outcome = Responds(response: Response) | Throws(thrown: ClassName)

  /** `Response.serverError().build()`. */
  const ServerError: Response := Response(InternalServerError, None, None)

  /**
   * The response for an exception whose status was found by `lookup` in the table; a
   * status `Response.status` refuses ends the call with its exception.
   */
  function Respond(e: RuntimeException, found: Option<int>, reasons: ReasonPhrases): (r: Outcome)
    ensures r.Throws? <==> !ValidStatus(ResolveStatus(found, e.tag))
    ensures r.Throws? ==> r.thrown == IllegalArgumentExceptionClass
    ensures r.Responds? ==> r.response == Response(ResolveStatus(found, e.tag),
              Some(ResolveEntity(e.message, ResolveStatus(found, e.tag), reasons)), Some(TextPlain))
  {
    var status := ResolveStatus(found, e.tag);
    var entity := ResolveEntity(e.message, status, reasons);
    if ValidStatus(status) then Responds(Response(status, Some(entity), Some(TextPlain)))
    else Throws(IllegalArgumentExceptionClass)
  }

  /** The status an exception carries itself: its code when it is status-code aware, else 500. */
  function OwnStatus(e: RuntimeException): int {
    if e.tag.StatusCodeAware? && e.tag.statusCode.Some? then e.tag.statusCode.value else InternalServerError
  }

  /**
   * `toResponse`, as written: the table is consulted with the exception instance as the
   * key, so its entries never decide the status.
   */
  function ToResponse(mapper: DefaultExceptionMapper, exception: Option<RuntimeException>, reasons: ReasonPhrases): (r: Outcome)
    ensures exception.None? ==> r == Responds(ServerError)
    ensures exception.Some? ==> (r.Throws? <==> !ValidStatus(OwnStatus(exception.value)))
    ensures r.Throws? ==> r.thrown == IllegalArgumentExceptionClass
    ensures exception.Some? && r.Responds? ==>
      r.response.status == OwnStatus(exception.value) && r.response.mediaType == Some(TextPlain)
    ensures exception.Some? && r.Responds? && !IsEmpty(exception.value.message) ==>
      r.response.entity == exception.value.message
    ensures exception.Some? && r.Responds? && IsEmpty(exception.value.message) ==>
      r.response.entity == Some(if r.response.status in reasons then reasons[r.response.status] else NoReason)
  {
    match exception
    case None => Responds(ServerError)
    case Some(e) => Respond(e, Get(mapper.codes, InstanceKey(e)), reasons)
  }

  /** `isMappable`, as written: only status-code-aware exceptions are accepted. */
  function IsMappable(mapper: DefaultExceptionMapper, exception: Option<RuntimeException>): (r: bool)
    ensures r <==> exception.Some? && exception.value.tag.StatusCodeAware?
  {
    match exception
    case None => false
    case Some(e) => e.tag.StatusCodeAware? || Get(mapper.codes, InstanceKey(e)).Some?
  }

  /** The status the by-class lookup settles on: the table's code for the class, else the exception's own. */
  function ClassStatus(mapper: DefaultExceptionMapper, e: RuntimeException): int {
    CodeOf(mapper.codes, e.cls).GetOr(OwnStatus(e))
  }

  /** `toResponse` with the table consulted by the exception's class, as the table is meant. */
  function ToResponseByClass(mapper: DefaultExceptionMapper, exception: Option<RuntimeException>, reasons: ReasonPhrases): (r: Outcome)
    ensures exception.None? ==> r == Responds(ServerError)
    ensures exception.Some? ==> (r.Throws? <==> !ValidStatus(ClassStatus(mapper, exception.value)))
    ensures r.Throws? ==> r.thrown == IllegalArgumentExceptionClass
    ensures exception.Some? && r.Responds? ==> r.response.mediaType == Some(TextPlain)
    ensures exception.Some? && r.Responds? && CodeOf(mapper.codes, exception.value.cls).Some? ==>
      r.response.status == CodeOf(mapper.codes, exception.value.cls).value
    ensures exception.Some? && r.Responds? && CodeOf(mapper.codes, exception.value.cls).None? ==>
      r.response.status == OwnStatus(exception.value)
    ensures exception.Some? && r.Responds? && !IsEmpty(exception.value.message) ==>
      r.response.entity == exception.value.message
    ensures exception.Some? && r.Responds? && IsEmpty(exception.value.message) ==>
      r.response.entity == Some(if r.response.status in reasons then reasons[r.response.status] else NoReason)
  {
    match exception
    case None => Responds(ServerError)
    case Some(e) => Respond(e, Get(mapper.codes, ClassKey(e.cls)), reasons)
  }

  /** `isMappable` with the table consulted by the exception's class. */
  function IsMappableByClass(mapper: DefaultExceptionMapper, exception: Option<RuntimeException>): (r: bool)
    ensures r <==> (exception.Some? &&
      (exception.value.tag.StatusCodeAware? || CodeOf(mapper.codes, exception.value.cls).Some?))
  {
    match exception
    case None => false
    case Some(e) => e.tag.StatusCodeAware? || Get(mapper.codes, ClassKey(e.cls)).Some?
  }

  /**
   * An exception the table maps is always accepted by the by-class mapper and answered
   * with the table's code, as long as `Response.status` accepts that code.
   */
  lemma ByClassAgreesWithTable(mapper: DefaultExceptionMapper, e: RuntimeException, reasons: ReasonPhrases)
    requires CodeOf(mapper.codes, e.cls).Some?
    ensures IsMappableByClass(mapper, Some(e))
    ensures var r := ToResponseByClass(mapper, Some(e), reasons);
            && (r.Responds? <==> ValidStatus(mapper.codes[e.cls].value))
            && (r.Responds? ==> r.response.status == mapper.codes[e.cls].value)
  {
  }

  /**
   * The two lookups differ exactly by the table: when the table has no code for the
   * exception's class, the as-written and the by-class outcomes coincide.
   */
  lemma LookupsAgreeOffTable(mapper: DefaultExceptionMapper, e: RuntimeException, reasons: ReasonPhrases)
    requires CodeOf(mapper.codes, e.cls).None?
    ensures ToResponse(mapper, Some(e), reasons) == ToResponseByClass(mapper, Some(e), reasons)
    ensures IsMappable(mapper, Some(e)) == IsMappableByClass(mapper, Some(e))
  {
  }

  /**
   * A status-code-aware exception carrying a code `Response.status` refuses, and not in
   * the table, makes both mappers throw `IllegalArgumentException`.
   */
  lemma UnusableOwnStatusThrows(mapper: DefaultExceptionMapper, e: RuntimeException, code: int, reasons: ReasonPhrases)
    requires e.tag == StatusCodeAware(Some(code)) && !ValidStatus(code)
    requires CodeOf(mapper.codes, e.cls).None?
    ensures ToResponse(mapper, Some(e), reasons) == Throws(IllegalArgumentExceptionClass)
    ensures ToResponseByClass(mapper, Some(e), reasons) == Throws(IllegalArgumentExceptionClass)
    ensures IsMappable(mapper, Some(e))
  {
  }

  /** Every default code is one `Response.status` accepts. */
  lemma DefaultCodesValid()
    ensures forall k :: k in DefaultCodes ==> ValidStatus(DefaultCodes[k])
  {
  }

  /**
   * An `IllegalArgumentException` with a message is mapped to 400 by the defaults, yet
   * the as-written mapper declines it and would answer 500; the by-class mapper answers 400.
   */
  lemma IllegalArgumentIgnoredAsWritten()
    ensures var mapper := NewMapper(None, {});
            var e := RuntimeException(IllegalArgumentExceptionClass, Some("bad input"), Plain);
            && mapper.codes[IllegalArgumentExceptionClass] == Some(BadRequest)
            && !IsMappable(mapper, Some(e))
            && ToResponse(mapper, Some(e), map[])
               == Responds(Response(InternalServerError, Some("bad input"), Some(TextPlain)))
            && IsMappableByClass(mapper, Some(e))
            && ToResponseByClass(mapper, Some(e), map[])
               == Responds(Response(BadRequest, Some("bad input"), Some(TextPlain)))
  {
    var mapper := NewMapper(None, {});
    assert IllegalArgumentExceptionClass in DefaultClasses({});
  }

  /** A null exception is never mappable and gets a bare 500. */
  lemma NullException(mapper: DefaultExceptionMapper, reasons: ReasonPhrases)
    ensures !IsMappable(mapper, None) && !IsMappableByClass(mapper, None)
    ensures ToResponse(mapper, None, reasons) == Responds(Response(500, None, None))
  {
  }
}

=== FILE: java_text.dfy ===
/**
 * The string predicates of `java.lang.String`, `java.lang.Character` and Spring's
 * `StringUtils` that the modelled code relies on.
 */
module JavaText {
  import opened Wrappers

  /**
   * `Character.isWhitespace`: the Unicode space, line and paragraph separators other
   * than the no-break spaces U+00A0, U+2007 and U+202F, plus the controls U+0009..U+000D
   * and U+001C..U+001F.
   */
  predicate IsWhitespace(c: char) {
    var n := c as int;
    || (0x09 <= n <= 0x0D)
    || (0x1C <= n <= 0x20)
    || n == 0x1680
    || (0x2000 <= n <= 0x2006)
    || (0x2008 <= n <= 0x200A)
    || n == 0x2028
    || n == 0x2029
    || n == 0x205F
    || n == 0x3000
  }

  /** `StringUtils.hasText`: not null, and some character is not whitespace. */
  predicate HasText(s: Option<string>) {
    s.Some? && exists i :: 0 <= i < |s.value| && !IsWhitespace(s.value[i])
  }

  /** A string with a non-whitespace character at index `i` has text. */
  lemma HasTextAt(s: string, i: int)
    requires 0 <= i < |s| && !IsWhitespace(s[i])
    ensures HasText(Some(s))
  {
  }

  /** `StringUtils.isEmpty`: null or the empty string. */
  predicate IsEmpty(s: Option<string>) {
    s.None? || s.value == ""
  }

  /** `String.startsWith`. */
  predicate StartsWith(s: string, prefix: string) {
    |prefix| <= |s| && s[..|prefix|] == prefix
  }

  /** `String.endsWith`. */
  predicate EndsWith(s: string, suffix: string) {
    |suffix| <= |s| && s[|s| - |suffix|..] == suffix
  }

  /** How string concatenation renders a possibly-null string: `null` becomes "null". */
  function ValueOf(s: Option<string>): string {
    s.GetOr("null")
  }

  /** `t` occurs in `s` starting at index `i`. */
  predicate OccursAt(s: string, t: string, i: int) {
    0 <= i <= |s| - |t| && s[i..i + |t|] == t
  }

  /**
   * `String.lastIndexOf(t)`: the greatest index at which `t` occurs in `s`, or -1 when
   * it does not occur at all.
   */
  function LastIndexOf(s: string, t: string): (r: int)
    ensures r == -1 || OccursAt(s, t, r)
    ensures forall j :: OccursAt(s, t, j) ==> j <= r
  {
    LastIndexOfFrom(s, t, |s| - |t|)
  }

  /** Searches for `t` in `s` at the indices `i`, `i - 1`, ..., 0. */
  function LastIndexOfFrom(s: string, t: string, i: int): (r: int)
    requires i <= |s| - |t|
    ensures r == -1 || (r <= i && OccursAt(s, t, r))
    ensures forall j :: r < j <= i ==> !OccursAt(s, t, j)
    decreases i + 1
  {
    if i < 0 then -1
    else if s[i..i + |t|] == t then i
    else LastIndexOfFrom(s, t, i - 1)
  }
}

=== FILE: jersey_configuration.dfy ===
/**
 * The `@PostConstruct` step of the Jersey auto-configuration: gathering components and
 * exception status tables from every provider, and turning the gathered components into
 * registrations on the resource configuration.
 */
module JerseyConfiguration {
  import opened Wrappers
  import opened JavaText
  import opened ServletPath
  import opened ExceptionMapping

  /**
   * A Jersey component as a provider offers it: a class name (a `String`), a `Class`, or
   * any other object. An object is identified by an id that stands for one class of
   * objects `equals` considers the same, which is what the insertion-ordered set compares.
   */
  datatype Component = NamedClass(name: string) | ClassLiteral(cls: ClassName) | Instance(id: nat)

  /** A `JerseyComponentsProvider`: its component array and its status table, either may be null. */
  datatype ComponentsProvider = ComponentsProvider(
    components: Option<seq<Option<Component>>>,
    statusCodes: Option<StatusCodeMap>)

  /** One call of `ResourceConfig.register`. */
  datatype Registration =
    | JaxbContextResolver
    | ClassRegistration(cls: ClassName)
    | InstanceRegistration(id: nat)
    | ExceptionMapperRegistration(mapper: DefaultExceptionMapper)

  /** The servlet pattern and the registrations, in order, that the step produces. */
  datatype JerseySetup = JerseySetup(path: string, registrations: seq<Registration>)

  /** No element occurs twice. */
  predicate NoDuplicates<T(==)>(xs: seq<T>) {
    forall i, j :: 0 <= i < j < |xs| ==> xs[i] != xs[j]
  }

  /** The index of the first occurrence of `x` in `xs`. */
  function FirstIndex<T(==)>(xs: seq<T>, x: T): (r: nat)
    requires x in xs
    ensures r < |xs| && xs[r] == x
    ensures forall j :: 0 <= j < r ==> xs[j] != x
  {
    if xs[0] == x then 0 else 1 + FirstIndex(xs[1..], x)
  }

  /** The non-null elements of a possibly-null array, in order. */
  function NonNull(xs: Option<seq<Option<Component>>>): (r: seq<Component>)
    ensures forall c :: c in r <==> xs.Some? && Some(c) in xs.value
    decreases if xs.Some? then |xs.value| else 0
  {
    if xs.None? || |xs.value| == 0 then []
    else
      var last := xs.value[|xs.value| - 1];
      var init := NonNull(Some(xs.value[..|xs.value| - 1]));
      assert xs.value == xs.value[..|xs.value| - 1] + [last];
      if last.Some? then init + [last.value] else init
  }

  /** Every non-null component of every provider, in provider order. */
  function Offered(providers: seq<ComponentsProvider>): (r: seq<Component>)
    ensures forall c :: c in r <==> exists i :: 0 <= i < |providers| && c in NonNull(providers[i].components)
  {
    if |providers| == 0 then []
    else
      var init := providers[..|providers| - 1];
      var r := Offered(init) + NonNull(providers[|providers| - 1].components);
      assert forall i :: 0 <= i < |init| ==> init[i] == providers[i];
      r
  }

  /**
   * Insertion into a `LinkedHashSet`, element by element: each element is kept at its
   * first occurrence and dropped when it comes again.
   */
  function Distinct(xs: seq<Component>): (r: seq<Component>)
    ensures NoDuplicates(r)
    ensures forall x :: x in r <==> x in xs
  {
    if |xs| == 0 then []
    else
      var d := Distinct(xs[..|xs| - 1]);
      var last := xs[|xs| - 1];
      assert xs == xs[..|xs| - 1] + [last];
      if last in d then d else d + [last]
  }

  /** The first occurrence of an element of a prefix lies in that prefix. */
  lemma FirstIndexInPrefix<T>(xs: seq<T>, n: nat, x: T)
    requires n <= |xs| && x in xs[..n]
    ensures FirstIndex(xs, x) == FirstIndex(xs[..n], x)
  {
    var i, k := FirstIndex(xs[..n], x), FirstIndex(xs, x);
    assert forall j :: 0 <= j < n ==> xs[..n][j] == xs[j];
    assert !(i < k) by { assert xs[i] == x; }
    assert !(k < i);
  }

  /** The kept elements appear in the order of their first occurrences. */
  lemma {:induction false} DistinctKeepsFirstOccurrenceOrder(xs: seq<Component>)
    ensures forall i, j :: 0 <= i < j < |Distinct(xs)| ==> FirstIndex(xs, Distinct(xs)[i]) < FirstIndex(xs, Distinct(xs)[j])
  {
    if |xs| > 0 {
      var n := |xs| - 1;
      var init := xs[..n];
      var d := Distinct(init);
      var last := xs[n];
      DistinctKeepsFirstOccurrenceOrder(init);
      forall y | y in d
        ensures FirstIndex(xs, y) == FirstIndex(init, y) < n
      {
        FirstIndexInPrefix(xs, n, y);
      }
      if last !in d {
        assert last !in init;
        assert FirstIndex(xs, last) == n;
      }
    }
  }

  /** The provider supplies a status table that has an entry for `cls`. */
  predicate Supplies(p: ComponentsProvider, cls: ClassName) {
    p.statusCodes.Some? && cls in p.statusCodes.value
  }

  /** `putAll` of every non-null provider table into one `HashMap`, in provider order. */
  function MergedCodes(providers: seq<ComponentsProvider>): (r: StatusCodeMap)
    ensures forall k :: k in r <==> exists i :: 0 <= i < |providers| && Supplies(providers[i], k)
  {
    if |providers| == 0 then map[]
    else
      var init := providers[..|providers| - 1];
      var last := providers[|providers| - 1];
      assert forall i :: 0 <= i < |init| ==> init[i] == providers[i];
      MergedCodes(init) + last.statusCodes.GetOr(map[])
  }

  /**
   * A later provider overrides an earlier one: a class's code comes from the last
   * provider whose table has an entry for it.
   */
  lemma {:induction false} MergedCodesLastWins(providers: seq<ComponentsProvider>, i: nat, k: ClassName)
    requires i < |providers| && Supplies(providers[i], k)
    requires forall j :: i < j < |providers| ==> !Supplies(providers[j], k)
    ensures k in MergedCodes(providers)
    ensures MergedCodes(providers)[k] == providers[i].statusCodes.value[k]
  {
    var n := |providers| - 1;
    var init := providers[..n];
    if i < n {
      assert forall j :: i < j < |init| ==> init[j] == providers[j];
      MergedCodesLastWins(init, i, k);
      assert !Supplies(providers[n], k);
    }
  }

  /** Appending one element to the input of `Distinct`. */
  lemma DistinctSnoc(xs: seq<Component>, x: Component)
    ensures Distinct(xs + [x]) == if x in Distinct(xs) then Distinct(xs) else Distinct(xs) + [x]
  {
    assert (xs + [x])[..|xs|] == xs;
  }

  /** Extending a prefix of a component array by one element. */
  lemma NonNullSnoc(cs: seq<Option<Component>>, j: nat)
    requires j < |cs|
    ensures NonNull(Some(cs[..j + 1])) == NonNull(Some(cs[..j])) + (if cs[j].Some? then [cs[j].value] else [])
  {
    assert cs[..j + 1][..j] == cs[..j];
  }

  /** Extending a prefix of the provider list by one provider. */
  lemma ProvidersSnoc(ps: seq<ComponentsProvider>, i: nat)
    requires i < |ps|
    ensures Offered(ps[..i + 1]) == Offered(ps[..i]) + NonNull(ps[i].components)
    ensures MergedCodes(ps[..i + 1]) == MergedCodes(ps[..i]) + ps[i].statusCodes.GetOr(map[])
  {
    assert ps[..i + 1][..i] == ps[..i];
  }

  /** One step of the inner loop: a null is skipped, a component already present is dropped. */
  lemma AddComponentStep(before: seq<Component>, cs: seq<Option<Component>>, j: nat)
    requires j < |cs|
    ensures var d := Distinct(before + NonNull(Some(cs[..j])));
            Distinct(before + NonNull(Some(cs[..j + 1])))
            == if cs[j].Some? && cs[j].value !in d then d + [cs[j].value] else d
  {
    NonNullSnoc(cs, j);
    var seen := before + NonNull(Some(cs[..j]));
    if cs[j].Some? {
      DistinctSnoc(seen, cs[j].value);
      assert seen + [cs[j].value] == before + NonNull(Some(cs[..j + 1]));
    } else {
      assert seen == before + NonNull(Some(cs[..j + 1]));
    }
  }

  /** The inner loop of `path()`: adds one provider's non-null components to the set. */
  method AddComponents(components: seq<Component>, ghost before: seq<Component>, cs: seq<Option<Component>>)
    returns (result: seq<Component>)
    requires components == Distinct(before)
    ensures result == Distinct(before + NonNull(Some(cs)))
  {
    result := components;
    var j := 0;
    assert NonNull(Some(cs[..0])) == [];
    assert before + NonNull(Some(cs[..0])) == before;
    while j < |cs|
      invariant 0 <= j <= |cs|
      invariant result == Distinct(before + NonNull(Some(cs[..j])))
    {
      AddComponentStep(before, cs, j);
      var component := cs[j];
      if component.Some? {
        if component.value !in result {
          result := result + [component.value];
        }
      }
      j := j + 1;
    }
    assert cs[..|cs|] == cs;
  }

  /** One pass of the provider loop: adds the `i`-th provider's components and table. */
  method GatherOne(components: seq<Component>, codes: StatusCodeMap, ps: seq<ComponentsProvider>, i: nat)
    returns (components': seq<Component>, codes': StatusCodeMap)
    requires i < |ps|
    requires components == Distinct(Offered(ps[..i])) && codes == MergedCodes(ps[..i])
    ensures components' == Distinct(Offered(ps[..i + 1])) && codes' == MergedCodes(ps[..i + 1])
  {
    components' := GatherComponents(components, ps, i);
    ProvidersSnoc(ps, i);
    codes' := codes;
    var table := ps[i].statusCodes;
    if table.Some? {
      codes' := codes + table.value;
    } else {
      assert codes + table.GetOr(map[]) == codes;
    }
  }

  /** The component half of one pass: a null component array adds nothing. */
  method GatherComponents(components: seq<Component>, ps: seq<ComponentsProvider>, i: nat)
    returns (components': seq<Component>)
    requires i < |ps|
    requires components == Distinct(Offered(ps[..i]))
    ensures components' == Distinct(Offered(ps[..i + 1]))
  {
    ProvidersSnoc(ps, i);
    ghost var before := Offered(ps[..i]);
    components' := components;
    var offered := ps[i].components;
    if offered.Some? {
      components' := AddComponents(components, before, offered.value);
    } else {
      assert before + NonNull(offered) == before;
    }
  }

  /**
   * The provider loop of `path()`: collects the non-null components into an
   * insertion-ordered set and merges the status tables with `putAll`. A null provider
   * list contributes nothing.
   */
  method GatherProviders(providers: Option<seq<ComponentsProvider>>) returns (components: seq<Component>, codes: StatusCodeMap)
    ensures components == Distinct(Offered(providers.GetOr([])))
    ensures codes == MergedCodes(providers.GetOr([]))
  {
    components := [];
    codes := map[];
    if providers.None? {
      return;
    }
    var ps := providers.value;
    var i := 0;
    assert ps[..0] == [];
    assert MergedCodes([]) == map[];
    assert Distinct(Offered([])) == [];
    while i < |ps|
      invariant 0 <= i <= |ps|
      invariant components == Distinct(Offered(ps[..i]))
      invariant codes == MergedCodes(ps[..i])
    {
      components, codes := GatherOne(components, codes, ps, i);
      i := i + 1;
    }
    assert ps[..|ps|] == ps;
  }

  /**
   * What `register` receives for one gathered component: a name is loaded with
   * `Class.forName` and skipped when that throws an `Exception`, a class is registered as
   * a class, any other object as an instance.
   */
  function RegistrationOf(c: Component, loadable: set<string>): (r: seq<Registration>)
    ensures |r| <= 1
    ensures r == [] <==> c.NamedClass? && c.name !in loadable
    ensures c.NamedClass? && c.name in loadable ==> r == [ClassRegistration(c.name)]
    ensures c.ClassLiteral? ==> r == [ClassRegistration(c.cls)]
    ensures c.Instance? ==> r == [InstanceRegistration(c.id)]
  {
    match c
    case NamedClass(name) => if name in loadable then [ClassRegistration(name)] else []
    case ClassLiteral(cls) => [ClassRegistration(cls)]
    case Instance(id) => [InstanceRegistration(id)]
  }

  /** The registration loop of `path()`, over the gathered components in set order. */
  function RegisterAll(components: seq<Component>, loadable: set<string>): (r: seq<Registration>)
    ensures |r| <= |components|
    ensures forall x :: x in r ==> x.ClassRegistration? || x.InstanceRegistration?
    ensures forall id :: InstanceRegistration(id) in r <==> Instance(id) in components
    ensures forall n :: ClassRegistration(n) in r <==>
              (ClassLiteral(n) in components || (NamedClass(n) in components && n in loadable))
  {
    if |components| == 0 then []
    else
      var init := components[..|components| - 1];
      var last := components[|components| - 1];
      assert components == init + [last];
      RegisterAll(init, loadable) + RegistrationOf(last, loadable)
  }

  /** Registration follows the order of the components: the list of a concatenation is the concatenation of the lists. */
  lemma {:induction false} RegisterAllAppend(xs: seq<Component>, ys: seq<Component>, loadable: set<string>)
    ensures RegisterAll(xs + ys, loadable) == RegisterAll(xs, loadable) + RegisterAll(ys, loadable)
    decreases |ys|
  {
    if |ys| == 0 {
      assert xs + ys == xs;
    } else {
      var init := ys[..|ys| - 1];
      var last := ys[|ys| - 1];
      assert ys == init + [last];
      assert xs + ys == (xs + init) + [last];
      RegisterAllSnoc(xs + init, last, loadable);
      RegisterAllSnoc(init, last, loadable);
      RegisterAllAppend(xs, init, loadable);
    }
  }

  /** Registering one more component appends that component's registration. */
  lemma RegisterAllSnoc(init: seq<Component>, last: Component, loadable: set<string>)
    ensures RegisterAll(init + [last], loadable) == RegisterAll(init, loadable) + RegistrationOf(last, loadable)
  {
  }

  /** A single component contributes exactly its own registration, if any. */
  lemma RegisterAllSingleton(c: Component, loadable: set<string>)
    ensures RegisterAll([c], loadable) == RegistrationOf(c, loadable)
  {
  }

  /**
   * Loading a gathered name throws an `Error` (an `ExceptionInInitializerError` or a
   * `LinkageError`, say). `errors` holds the names whose `Class.forName` throws one; a
   * name in `loadable` loads, so it never throws. The registration loop catches only
   * `Exception`, so such an `Error` escapes `path()`.
   */
  predicate LoadingThrowsError(components: seq<Component>, loadable: set<string>, errors: set<string>) {
    exists c :: c in components && c.NamedClass? && c.name !in loadable && c.name in errors
  }

  /** The JAXB resolver heads the registrations exactly when it was registered. */
  lemma ResolverComesFirst(hasMarshaller: bool, registered: seq<Registration>, last: Registration)
    requires forall x :: x in registered ==> x.ClassRegistration? || x.InstanceRegistration?
    requires last.ExceptionMapperRegistration?
    ensures var all := (if hasMarshaller then [JaxbContextResolver] else []) + registered + [last];
            (all[0] == JaxbContextResolver) <==> hasMarshaller
  {
    if !hasMarshaller && |registered| > 0 {
      assert registered[0] in registered;
    }
  }

  /**
   * The registrations of `path()` once the components are gathered: the JAXB context
   * resolver when a marshaller is present, then every gathered component, and last the
   * exception mapper built over the merged status tables.
   */
  function Registrations(hasMarshaller: bool, components: seq<Component>, codes: StatusCodeMap,
                         loadable: set<string>): (r: seq<Registration>)
    ensures |r| >= 1
    ensures (r[0] == JaxbContextResolver) <==> hasMarshaller
    ensures r[|r| - 1] == ExceptionMapperRegistration(NewMapper(Some(codes), loadable))
    ensures r == (if hasMarshaller then [JaxbContextResolver] else []) + RegisterAll(components, loadable)
                 + [r[|r| - 1]]
  {
    var registered := RegisterAll(components, loadable);
    var last := ExceptionMapperRegistration(NewMapper(Some(codes), loadable));
    ResolverComesFirst(hasMarshaller, registered, last);
    (if hasMarshaller then [JaxbContextResolver] else []) + registered + [last]
  }

  /**
   * `path()`: normalises the configured path, gathers the providers' components and
   * tables, and registers them. When loading a gathered name throws an `Error`, `path()`
   * ends with that error and there is no setup (`None`).
   */
  method PostConstruct(jerseyPath: Option<string>, providers: Option<seq<ComponentsProvider>>,
                       hasMarshaller: bool, loadable: set<string>, errors: set<string>)
    returns (setup: Option<JerseySetup>)
    ensures setup.None? <==> LoadingThrowsError(Distinct(Offered(providers.GetOr([]))), loadable, errors)
    ensures setup.Some? ==> setup.value.path == FindPath(jerseyPath)
    ensures setup.Some? ==>
      setup.value.registrations
      == Registrations(hasMarshaller, Distinct(Offered(providers.GetOr([]))), MergedCodes(providers.GetOr([])), loadable)
  {
    var path := FindPath(jerseyPath);
    var components, codes := GatherProviders(providers);
    if LoadingThrowsError(components, loadable, errors) {
      return None;
    }
    setup := Some(JerseySetup(path, Registrations(hasMarshaller, components, codes, loadable)));
  }

  /**
   * A code a provider supplies is what the mapper ends up with for that class, unless a
   * later provider overrides it: the defaults never replace it.
   */
  lemma ProviderCodeSurvivesDefaults(providers: seq<ComponentsProvider>, i: nat, k: ClassName, loadable: set<string>)
    requires i < |providers| && Supplies(providers[i], k) && providers[i].statusCodes.value[k].Some?
    requires forall j :: i < j < |providers| ==> !Supplies(providers[j], k)
    ensures NewMapper(Some(MergedCodes(providers)), loadable).codes[k] == providers[i].statusCodes.value[k]
  {
    MergedCodesLastWins(providers, i, k);
  }
}

=== FILE: password_flow.dfy ===
/**
 * The password-grant properties: the form body of an OAuth 2.0 resource owner password
 * credentials access-token request (section 4.3.2 of RFC 6749, with the client
 * credentials in the request body as section 2.3.1 allows), the token cache key, and the
 * builder that assembles the properties.
 */
module PasswordFlow {
  import opened Wrappers
  import opened JavaText

  /** `MultiValueMap<String, String>`: each key holds a list of possibly-null values. */
  type MultiValueMap = map<string, seq<Option<string>>>

  const GrantTypeKey: string := "grant_type"
  const ClientIdKey: string := "client_id"
  const ClientSecretKey: string := "client_secret"
  const UsernameKey: string := "username"
  const PasswordKey: string := "password"

  /** The `grant_type` value of the resource owner password credentials grant. */
  const PasswordGrant: string := "password"

  /** The keys the body sets itself, whatever the additional properties say. */
  const ReservedKeys: set<string> := {GrantTypeKey, ClientIdKey, ClientSecretKey, UsernameKey, PasswordKey}

  /**
   * Flow properties: a client credentials flow, or a password flow, which adds the
   * resource owner's username and password.
   */
  datatype FlowProperties =
    | ClientCredentialsFlow(
        tokenEndpoint: Option<string>,
        clientId: Option<string>,
        clientSecret: Option<string>,
        additionalProperties: Option<MultiValueMap>)
    | PasswordFlow(
        tokenEndpoint: Option<string>,
        clientId: Option<string>,
        clientSecret: Option<string>,
        additionalProperties: Option<MultiValueMap>,
        username: Option<string>,
        password: Option<string>)

  /** The values a multi-value map holds for a key; an absent key holds none. */
  function ValuesOf(m: MultiValueMap, key: string): seq<Option<string>> {
    if key in m then m[key] else []
  }

  /** `MultiValueMap.set`: the key holds exactly the one value. */
  function SetValue(m: MultiValueMap, key: string, value: Option<string>): (r: MultiValueMap)
    ensures r.Keys == m.Keys + {key}
    ensures ValuesOf(r, key) == [value]
    ensures forall k :: k in m && k != key ==> r[k] == m[k]
  {
    m[key := [value]]
  }

  /** `MultiValueMap.addAll(key, values)`: the values are appended to the key's list. */
  function AddValues(m: MultiValueMap, key: string, values: seq<Option<string>>): (r: MultiValueMap)
    ensures r.Keys == m.Keys + {key}
    ensures ValuesOf(r, key) == ValuesOf(m, key) + values
    ensures forall k :: k in m && k != key ==> r[k] == m[k]
  {
    m[key := ValuesOf(m, key) + values]
  }

  /** `MultiValueMap.addAll(other)`: every list of `other` is appended to the same key's list. */
  function AddAllValues(m: MultiValueMap, other: MultiValueMap): (r: MultiValueMap)
    ensures r.Keys == m.Keys + other.Keys
    ensures forall k :: k in r ==> r[k] == ValuesOf(m, k) + ValuesOf(other, k)
  {
    map k | k in m.Keys + other.Keys :: ValuesOf(m, k) + ValuesOf(other, k)
  }

  /**
   * `getBasicAuthProperties`: a password flow never uses HTTP Basic authentication for
   * the client (its credentials travel in the body); the properties type itself is not
   * part of this model.
   */
  function BasicAuthProperties<B>(p: FlowProperties): (r: Option<B>)
    requires p.PasswordFlow?
    ensures r.None?
  {
    None
  }

  /** `createCacheKey`: the five credentials, in order, joined by `:`; `null` renders as "null". */
  function CreateCacheKey(p: FlowProperties): (key: string)
    requires p.PasswordFlow?
    ensures |key| == |ValueOf(p.tokenEndpoint)| + |ValueOf(p.clientId)| + |ValueOf(p.clientSecret)|
                     + |ValueOf(p.username)| + |ValueOf(p.password)| + 4
    ensures StartsWith(key, ValueOf(p.tokenEndpoint) + ":")
    ensures EndsWith(key, ":" + ValueOf(p.password))
  {
    ValueOf(p.tokenEndpoint) + ":" + ValueOf(p.clientId) + ":" + ValueOf(p.clientSecret)
    + ":" + ValueOf(p.username) + ":" + ValueOf(p.password)
  }

  /**
   * `createBody`: the additional properties are copied first, then `grant_type`,
   * `client_id`, `client_secret`, `username` and `password` are set to one value each;
   * a null secret or password is sent as the empty string.
   */
  function CreateBody(p: FlowProperties): (body: MultiValueMap)
    requires p.PasswordFlow?
    ensures body.Keys == p.additionalProperties.GetOr(map[]).Keys + ReservedKeys
    ensures forall k :: k in p.additionalProperties.GetOr(map[]) && k !in ReservedKeys ==>
              body[k] == p.additionalProperties.GetOr(map[])[k]
    ensures body[GrantTypeKey] == [Some(PasswordGrant)]
    ensures body[ClientIdKey] == [p.clientId]
    ensures p.clientSecret.Some? ==> body[ClientSecretKey] == [p.clientSecret]
    ensures p.clientSecret.None? ==> body[ClientSecretKey] == [Some("")]
    ensures body[UsernameKey] == [p.username]
    ensures p.password.Some? ==> body[PasswordKey] == [p.password]
    ensures p.password.None? ==> body[PasswordKey] == [Some("")]
  {
    var body := AddAllValues(map[], p.additionalProperties.GetOr(map[]));
    var body := SetValue(body, GrantTypeKey, Some(PasswordGrant));
    var body := SetValue(body, ClientIdKey, p.clientId);
    var body := SetValue(body, ClientSecretKey, if p.clientSecret.Some? then p.clientSecret else Some(""));
    var body := SetValue(body, UsernameKey, p.username);
    SetValue(body, PasswordKey, if p.password.Some? then p.password else Some(""))
  }

  /** The builder's state: five scalar fields and the accumulated additional properties. */
  datatype Builder = Builder(
    tokenEndpoint: Option<string>,
    clientId: Option<string>,
    clientSecret: Option<string>,
    username: Option<string>,
    password: Option<string>,
    additionalProperties: MultiValueMap)

  /** `PasswordFlowProperties.builder()`: everything null, no additional properties. */
  const NewBuilder: Builder := Builder(None, None, None, None, None, map[])

  /**
   * `Builder.add(key, values...)`: ignored when the key has no text or the values array
   * is null; otherwise the values are appended to the key's list.
   */
  function Add(b: Builder, key: Option<string>, values: Option<seq<Option<string>>>): (r: Builder)
    ensures !HasText(key) || values.None? ==> r == b
    ensures HasText(key) && values.Some? ==>
      && r.additionalProperties.Keys == b.additionalProperties.Keys + {key.value}
      && ValuesOf(r.additionalProperties, key.value) == ValuesOf(b.additionalProperties, key.value) + values.value
      && (forall k :: k in b.additionalProperties && k != key.value ==>
            r.additionalProperties[k] == b.additionalProperties[k])
      && r.(additionalProperties := b.additionalProperties) == b
  {
    if HasText(key) && values.Some? then
      b.(additionalProperties := AddValues(b.additionalProperties, key.value, values.value))
    else b
  }

  /**
   * `Builder.from(properties)`: a null source changes nothing; otherwise the source's
   * additional properties are appended and all five scalars are overwritten, username and
   * password with null when the source is not a password flow.
   */
  function From(b: Builder, source: Option<FlowProperties>): (r: Builder)
    ensures source.None? ==> r == b
    ensures source.Some? ==>
      && r.tokenEndpoint == source.value.tokenEndpoint
      && r.clientId == source.value.clientId
      && r.clientSecret == source.value.clientSecret
      && (source.value.ClientCredentialsFlow? ==> r.username.None? && r.password.None?)
      && (source.value.PasswordFlow? ==>
            r.username == source.value.username && r.password == source.value.password)
    ensures source.Some? ==>
      r.additionalProperties.Keys == b.additionalProperties.Keys + source.value.additionalProperties.GetOr(map[]).Keys
    ensures source.Some? ==> forall k :: k in r.additionalProperties ==>
      r.additionalProperties[k]
      == ValuesOf(b.additionalProperties, k) + ValuesOf(source.value.additionalProperties.GetOr(map[]), k)
  {
    match source
    case None => b
    case Some(p) =>
      var additional :=
        if p.additionalProperties.Some? then AddAllValues(b.additionalProperties, p.additionalProperties.value)
        else b.additionalProperties;
      var username := if p.PasswordFlow? then p.username else None;
      var password := if p.PasswordFlow? then p.password else None;
      Builder(p.tokenEndpoint, p.clientId, p.clientSecret, username, password, additional)
  }

  /**
   * `Builder.build()`: a password flow over the builder's fields; a fresh builder filled
   * from the built properties is the builder again.
   */
  function Build(b: Builder): (p: FlowProperties)
    ensures p.PasswordFlow?
    ensures From(NewBuilder, Some(p)) == b
  {
    AddAllToEmpty(b.additionalProperties);
    PasswordFlow(b.tokenEndpoint, b.clientId, b.clientSecret, Some(b.additionalProperties),
                 b.username, b.password)
  }

  /** Adding every list of a map to an empty map gives that map. */
  lemma AddAllToEmpty(m: MultiValueMap)
    ensures AddAllValues(map[], m) == m
  {
    var r := AddAllValues(map[], m);
    assert forall k :: k in r ==> r[k] == m[k];
  }

  /** The fields of a string separated by `sep`, as `String.split` would give them with all empty fields kept. */
  function Split(s: string, sep: char): (r: seq<string>)
    ensures |r| >= 1
  {
    if |s| == 0 then [""]
    else
      var rest := Split(s[1..], sep);
      if s[0] == sep then [""] + rest else [[s[0]] + rest[0]] + rest[1..]
  }

  /** A string without the separator is a single field. */
  lemma {:induction false} SplitWithoutSeparator(s: string, sep: char)
    requires sep !in s
    ensures Split(s, sep) == [s]
  {
    if |s| > 0 {
      SplitWithoutSeparator(s[1..], sep);
      assert [s[0]] + s[1..] == s;
    }
  }

  /** A separator-free field followed by the separator splits off as the first field. */
  lemma {:induction false} SplitAtSeparator(a: string, sep: char, b: string)
    requires sep !in a
    ensures Split(a + [sep] + b, sep) == [a] + Split(b, sep)
  {
    if |a| == 0 {
      assert a + [sep] + b == [sep] + b;
      assert ([sep] + b)[1..] == b;
    } else {
      SplitAtSeparator(a[1..], sep, b);
      assert (a + [sep] + b)[1..] == a[1..] + [sep] + b;
      assert [a[0]] + a[1..] == a;
    }
  }

  /**
   * Where each credential sits in the cache key: the token endpoint, client id, client
   * secret and username each followed by `:`, then the password, whatever the
   * credentials contain.
   */
  lemma CacheKeyLayout(p: FlowProperties)
    requires p.PasswordFlow?
    ensures var key := CreateCacheKey(p);
            var te, ci, cs, u := ValueOf(p.tokenEndpoint), ValueOf(p.clientId), ValueOf(p.clientSecret),
              ValueOf(p.username);
            var a := |te| + 1;
            var b := a + |ci| + 1;
            var c := b + |cs| + 1;
            && key[a - 1] == ':' && key[b - 1] == ':' && key[c - 1] == ':'
            && key[c + |u|] == ':'
            && key[..a - 1] == te
            && key[a..a + |ci|] == ci
            && key[b..b + |cs|] == cs
            && key[c..c + |u|] == u
            && key[c + |u| + 1..] == ValueOf(p.password)
  {
  }

  /**
   * The cache key is the five credentials in order: when none of them contains `:`,
   * splitting the key at `:` gives them back.
   */
  lemma CacheKeyFields(p: FlowProperties)
    requires p.PasswordFlow?
    requires ':' !in ValueOf(p.tokenEndpoint) && ':' !in ValueOf(p.clientId)
    requires ':' !in ValueOf(p.clientSecret) && ':' !in ValueOf(p.username)
    requires ':' !in ValueOf(p.password)
    ensures Split(CreateCacheKey(p), ':') == [ValueOf(p.tokenEndpoint), ValueOf(p.clientId),
      ValueOf(p.clientSecret), ValueOf(p.username), ValueOf(p.password)]
  {
    var te, ci, cs, u, pw := ValueOf(p.tokenEndpoint), ValueOf(p.clientId), ValueOf(p.clientSecret),
      ValueOf(p.username), ValueOf(p.password);
    assert CreateCacheKey(p) == te + [':'] + (ci + [':'] + (cs + [':'] + (u + [':'] + pw)));
    SplitAtSeparator(te, ':', ci + [':'] + (cs + [':'] + (u + [':'] + pw)));
    SplitAtSeparator(ci, ':', cs + [':'] + (u + [':'] + pw));
    SplitAtSeparator(cs, ':', u + [':'] + pw);
    SplitAtSeparator(u, ':', pw);
    SplitWithoutSeparator(pw, ':');
  }

  /**
   * The client authenticates with its credentials in the request body, never with HTTP
   * Basic authentication, and the body always names the password grant.
   */
  lemma ClientCredentialsInBody<B>(p: FlowProperties)
    requires p.PasswordFlow?
    ensures BasicAuthProperties<B>(p).None?
    ensures ClientIdKey in CreateBody(p) && ClientSecretKey in CreateBody(p)
    ensures CreateBody(p)[GrantTypeKey] == [Some(PasswordGrant)]
  {
  }

  /** Building from a password flow's properties gives them back, a null table becoming empty. */
  lemma BuildFromRoundTrip(p: FlowProperties)
    requires p.PasswordFlow?
    ensures Build(From(NewBuilder, Some(p))) == p.(additionalProperties := Some(p.additionalProperties.GetOr(map[])))
  {
    if p.additionalProperties.Some? {
      AddAllToEmpty(p.additionalProperties.value);
    }
  }

  /** A property added under a non-reserved key reaches the request body with its values appended. */
  lemma AddedPropertyReachesBody(b: Builder, key: string, values: seq<Option<string>>)
    requires HasText(Some(key)) && key !in ReservedKeys
    ensures CreateBody(Build(Add(b, Some(key), Some(values))))[key]
            == ValuesOf(b.additionalProperties, key) + values
  {
    var added := Add(b, Some(key), Some(values));
    assert key in added.additionalProperties;
    assert Build(added).additionalProperties.GetOr(map[]) == added.additionalProperties;
  }

  /** A property added under a reserved key is overridden by the body's own value. */
  lemma ReservedPropertyOverridden(b: Builder, key: string, values: seq<Option<string>>)
    requires key in ReservedKeys
    ensures CreateBody(Build(Add(b, Some(key), Some(values))))[key] == CreateBody(Build(b))[key]
  {
    var added := Add(b, Some(key), Some(values));
    assert key == GrantTypeKey || key == ClientIdKey || key == ClientSecretKey || key == UsernameKey || key == PasswordKey;
    assert added.(additionalProperties := b.additionalProperties) == b;
    var p, q := Build(added), Build(b);
    assert p.clientId == q.clientId && p.clientSecret == q.clientSecret;
    assert p.username == q.username && p.password == q.password;
  }

  /** `from` with a client credentials source clears any username and password. */
  lemma FromClientCredentialsClearsOwner(b: Builder, source: FlowProperties)
    requires source.ClientCredentialsFlow?
    ensures CreateBody(Build(From(b, Some(source))))[UsernameKey] == [None]
    ensures CreateBody(Build(From(b, Some(source))))[PasswordKey] == [Some("")]
  {
  }
}

=== FILE: servlet_path.dfy ===
/**
 * The servlet URL pattern that the Jersey auto-configuration derives from the configured
 * application path (`findPath`), and the filter context path it derives from that pattern
 * (`stripPattern`).
 */
module ServletPath {
  import opened Wrappers
  import opened JavaText

  /** The trailing wildcard of a servlet URL pattern: a slash and an asterisk. */
  const Wildcard: string := "/*"

  /** `n` wildcards in a row. */
  function Wildcards(n: nat): (r: string)
    ensures |r| == 2 * n
  {
    if n == 0 then "" else Wildcards(n - 1) + Wildcard
  }

  /** Forces a leading `/`. */
  function WithLeadingSlash(path: string): (r: string)
    ensures StartsWith(r, "/")
    ensures StartsWith(path, "/") ==> r == path
    ensures !StartsWith(path, "/") ==> r[1..] == path
  {
    if StartsWith(path, "/") then path else "/" + path
  }

  /**
   * The loop of `findPath` that runs while the path ends with the wildcard: removes every
   * trailing wildcard.
   */
  function StripWildcards(path: string): (r: string)
    ensures !EndsWith(r, Wildcard)
    ensures StartsWith(path, r)
    decreases |path|
  {
    if EndsWith(path, Wildcard) then StripWildcards(path[..|path| - 2]) else path
  }

  /**
   * The stripping loop removes wildcards and nothing else: the path is what it leaves
   * followed by `k` wildcards, for the `k` it returns.
   */
  lemma {:induction false} StripWildcardsRemovesOnlyWildcards(path: string) returns (k: nat)
    ensures path == StripWildcards(path) + Wildcards(k)
    decreases |path|
  {
    if EndsWith(path, Wildcard) {
      var shorter := path[..|path| - 2];
      var j := StripWildcardsRemovesOnlyWildcards(shorter);
      assert path == shorter + Wildcard;
      k := j + 1;
    } else {
      k := 0;
    }
  }

  /**
   * `findPath`: a blank path gives the bare wildcard; otherwise a leading `/` is forced,
   * every trailing wildcard is removed and exactly one is appended (the root `/` becomes
   * the bare wildcard).
   */
  function FindPath(path: Option<string>): (r: string)
    ensures !HasText(path) ==> r == Wildcard
    ensures StartsWith(r, "/") && EndsWith(r, Wildcard)
    ensures !EndsWith(r[..|r| - 2], Wildcard) && r[..|r| - 2] != "/"
  {
    if !HasText(path) then Wildcard
    else AppendWildcard(StripWildcards(WithLeadingSlash(path.value)))
  }

  /**
   * The final step of `findPath`: the root becomes the bare wildcard, anything else gets
   * one wildcard.
   */
  function AppendWildcard(stripped: string): (r: string)
    requires !EndsWith(stripped, Wildcard)
    requires stripped == "" || StartsWith(stripped, "/")
    ensures StartsWith(r, "/") && EndsWith(r, Wildcard)
    ensures !EndsWith(r[..|r| - 2], Wildcard) && r[..|r| - 2] != "/"
    ensures stripped == "/" ==> r == Wildcard
    ensures stripped != "/" ==> StripPattern(r) == stripped
  {
    if stripped == "/" then Wildcard else stripped + Wildcard
  }

  /**
   * `stripPattern`: removes one trailing wildcard (cut at its last occurrence) and leaves
   * any other string unchanged.
   */
  function StripPattern(path: string): (r: string)
    ensures EndsWith(path, Wildcard) ==> r + Wildcard == path
    ensures !EndsWith(path, Wildcard) ==> r == path
  {
    if EndsWith(path, Wildcard) then
      assert OccursAt(path, Wildcard, |path| - 2);
      path[..LastIndexOf(path, Wildcard)]
    else path
  }

  /** Appending one wildcard does not change what the stripping loop leaves. */
  lemma StripWildcardsStep(path: string)
    ensures StripWildcards(path + Wildcard) == StripWildcards(path)
  {
    var longer := path + Wildcard;
    assert longer[|longer| - 2..] == Wildcard;
    assert longer[..|longer| - 2] == path;
  }

  /** Stripping `path` followed by `n` wildcards is stripping it followed by `n - 1`. */
  lemma AppendOneMore(path: string, n: nat)
    requires n > 0
    ensures StripWildcards(path + Wildcards(n)) == StripWildcards(path + Wildcards(n - 1))
  {
    var shorter := path + Wildcards(n - 1);
    assert path + Wildcards(n) == shorter + Wildcard;
    StripWildcardsStep(shorter);
  }

  /** Appending wildcards to a path does not change what the stripping loop leaves. */
  lemma {:induction false} StripWildcardsIgnoresAppended(path: string, n: nat)
    ensures StripWildcards(path + Wildcards(n)) == StripWildcards(path)
  {
    if n == 0 {
      assert path + Wildcards(n) == path;
    } else {
      var shorter := StripWildcards(path + Wildcards(n - 1));
      StripWildcardsIgnoresAppended(path, n - 1);
      assert shorter == StripWildcards(path);
      AppendOneMore(path, n);
      assert StripWildcards(path + Wildcards(n)) == shorter;
    }
  }

  /** Forcing a leading `/` commutes with appending to a non-empty path. */
  lemma WithLeadingSlashAppend(path: string, suffix: string)
    requires |path| > 0
    ensures WithLeadingSlash(path + suffix) == WithLeadingSlash(path) + suffix
  {
    assert (path + suffix)[..1] == path[..1];
    if !StartsWith(path, "/") {
      assert "/" + (path + suffix) == ("/" + path) + suffix;
    }
  }

  /**
   * Any number of trailing wildcards on a configured path are irrelevant: the pattern is
   * the same as for the path without them.
   */
  lemma FindPathIgnoresTrailingWildcards(path: string, n: nat)
    requires HasText(Some(path))
    ensures FindPath(Some(path + Wildcards(n))) == FindPath(Some(path))
  {
    var longer := path + Wildcards(n);
    var i :| 0 <= i < |path| && !IsWhitespace(path[i]);
    assert longer[i] == path[i];
    HasTextAt(longer, i);
    WithLeadingSlashAppend(path, Wildcards(n));
    StripWildcardsIgnoresAppended(WithLeadingSlash(path), n);
  }

  /**
   * For a path already in canonical form (leading `/`, no trailing wildcard, not the root)
   * followed by any number of wildcards, the pattern is the path plus exactly one wildcard.
   */
  lemma FindPathOfCanonical(path: string, n: nat)
    requires StartsWith(path, "/") && !EndsWith(path, Wildcard) && path != "/"
    ensures FindPath(Some(path + Wildcards(n))) == path + Wildcard
  {
    HasTextAt(path, 0);
    FindPathIgnoresTrailingWildcards(path, n);
  }

  /** The root path on its own gives the bare wildcard. */
  lemma FindPathOfSlash()
    ensures FindPath(Some("/")) == Wildcard
  {
    HasTextAt("/", 0);
    assert WithLeadingSlash("/") == "/";
    assert !EndsWith("/", Wildcard);
    assert StripWildcards("/") == "/";
  }

  /** A single wildcard on its own gives the bare wildcard. */
  lemma FindPathOfWildcard()
    ensures FindPath(Some(Wildcard)) == Wildcard
  {
    HasTextAt(Wildcard, 0);
    assert WithLeadingSlash(Wildcard) == Wildcard;
    assert EndsWith(Wildcard, Wildcard);
    assert Wildcard[..0] == "";
    assert StripWildcards(Wildcard) == StripWildcards("");
    assert StripWildcards("") == "";
  }

  /** A configured path that is a root followed by wildcards gives the bare wildcard. */
  lemma FindPathOfRoot(n: nat)
    ensures FindPath(Some("/" + Wildcards(n))) == Wildcard
  {
    HasTextAt("/", 0);
    FindPathIgnoresTrailingWildcards("/", n);
    FindPathOfSlash();
  }

  /**
   * A configured path made only of wildcards (one, then `n` more) gives the bare wildcard.
   */
  lemma FindPathOfWildcards(n: nat)
    ensures FindPath(Some(Wildcard + Wildcards(n))) == Wildcard
  {
    HasTextAt(Wildcard, 0);
    FindPathIgnoresTrailingWildcards(Wildcard, n);
    FindPathOfWildcard();
  }

  /** A configured path without a leading `/` gets one. */
  lemma FindPathForcesLeadingSlash(path: string)
    requires HasText(Some(path)) && !StartsWith(path, "/")
    ensures FindPath(Some(path)) == FindPath(Some("/" + path))
  {
    var i :| 0 <= i < |path| && !IsWhitespace(path[i]);
    assert ("/" + path)[i + 1] == path[i];
    HasTextAt("/" + path, i + 1);
  }

  /** Normalising a pattern again leaves it unchanged. */
  lemma FindPathIdempotent(path: Option<string>)
    ensures FindPath(Some(FindPath(path))) == FindPath(path)
  {
    FindPathOfPattern(FindPath(path));
  }

  /** A string of the shape `findPath` produces is its own pattern. */
  lemma FindPathOfPattern(r: string)
    requires StartsWith(r, "/") && EndsWith(r, Wildcard)
    requires !EndsWith(r[..|r| - 2], Wildcard) && r[..|r| - 2] != "/"
    ensures FindPath(Some(r)) == r
  {
    var base := r[..|r| - 2];
    assert r == base + Wildcard;
    if base == "" {
      assert r == Wildcard;
      FindPathOfWildcard();
    } else {
      assert base[0] == r[0];
      assert Wildcards(1) == Wildcard;
      FindPathOfCanonical(base, 1);
    }
  }

  /**
   * The filter context path is the servlet pattern without its wildcard: appending the
   * wildcard again gives back the pattern.
   */
  lemma StripPatternOfFindPath(path: Option<string>)
    ensures StripPattern(FindPath(path)) + Wildcard == FindPath(path)
    ensures !EndsWith(StripPattern(FindPath(path)), Wildcard)
  {
  }

  /** Worked examples: blank paths. */
  lemma FindPathBlankExamples()
    ensures FindPath(None) == "/*"
    ensures FindPath(Some("")) == "/*"
    ensures FindPath(Some(" \t")) == "/*"
  {
    var blank := " \t";
    assert forall i :: 0 <= i < |blank| ==> IsWhitespace(blank[i]);
  }

  /** Worked examples: a root followed by zero, one or two wildcards. */
  lemma FindPathRootExamples()
    ensures FindPath(Some("/")) == "/*"
    ensures FindPath(Some("/*")) == "/*"
  {
    FindPathOfSlash();
    FindPathOfWildcard();
  }

  /** Worked example: two wildcards on their own. */
  lemma FindPathTwoWildcardsExample()
    ensures FindPath(Some("/*/*")) == "/*"
  {
    assert Wildcards(1) == Wildcard;
    assert Wildcard + Wildcards(1) == "/*/*";
    FindPathOfWildcards(1);
  }

  /**
   * The literal path with two wildcards after `/api` is `/api` followed by `Wildcards(2)`.
   */
  lemma ApiWithTwoWildcards()
    ensures "/api" + Wildcards(2) == "/api/*/*"
    ensures "/" + "api/*/*" == "/api/*/*"
  {
    assert Wildcards(1) == Wildcard;
    assert Wildcards(2) == "/*/*";
  }

  /** Worked example: an absolute path with repeated wildcards. */
  lemma FindPathRepeatedWildcardsExample()
    ensures FindPath(Some("/api/*/*")) == "/api/*"
  {
    ApiWithTwoWildcards();
    FindPathOfCanonical("/api", 2);
  }

  /** Worked example: a relative path with repeated wildcards. */
  lemma FindPathRelativeExample()
    ensures FindPath(Some("api/*/*")) == "/api/*"
  {
    var path := "api/*/*";
    HasTextAt(path, 0);
    FindPathForcesLeadingSlash(path);
    ApiWithTwoWildcards();
    FindPathRepeatedWildcardsExample();
  }

  /** Worked example: a plain absolute path. */
  lemma FindPathPlainExample()
    ensures FindPath(Some("/api")) == "/api/*"
  {
    assert "/api" + Wildcards(0) == "/api";
    FindPathOfCanonical("/api", 0);
  }
}

=== FILE: wrappers.dfy ===
/** A Java reference that may be `null`, and the few operations on it the model needs. */
module Wrappers {

  /** `None` stands for `null`, `Some(v)` for a non-null reference to `v`. */
  datatype Option<+T> = None | Some(value: T) {

    /** The referenced value, or `default` when the reference is `null`. */
    function GetOr(default: T): T {
      match this
      case Some(v) => v
      case None => default
    }
  }
}
